=== FILE: README.md ===
# Module loader of the v8env developer tools, in Dafny

This project models the module loader in `v8env/src/dev-tools/compiler.ts`:
the `Compiler` class that resolves AMD-style modules through a fetcher,
compiles them with the TypeScript language service, evaluates the emitted
code under a per-module `define`, gathers each module's dependencies
(instantiating them depth first, with a guard against cycles), and finally
calls the queued module factories in first-in first-out order.

The model is a pure state machine. `LoaderState.State` holds the module
cache (records keyed by fileName), the specifier cache, the run queue, a
heap of exports objects addressed by reference (so "the same exports
object" is "the same reference"), the module the global `define` is bound
to, the compile scope (`scriptFileNames`), and a log of the calls the
loader makes into its collaborators (fetch, emit, evaluate, factory). That
log is how the model states memoisation ("no second emit"), cache hits ("no
second fetch") and the order in which factories run. Every operation
returns `Ok(value, state)` or `Fail(error, state)`; a failure carries the
state as it was when the error was thrown, since the loader rolls nothing
back.

The collaborators are parameters (`Collaborators.Host`): the fetcher is a
finite table from (specifier, containing file) to (module id, fileName,
source), and the language service's emit, the evaluation of compiled code
and the factories are deterministic functions. The finite fetch table
bounds the set of modules, and this is what makes the mutual recursion of
instantiate / define / gather terminate: every descent passes through a
`define` that marks one more module as gathering.

Files: `base.dfy` (names, errors, values), `media.dfy` (media types and
script kinds), `record.dfy` (`ModuleInfo`), `cache.dfy` (`ModuleCache`),
`collaborators.dfy`, `state.dfy` (state, invariant, reload), `resolver.dfy`,
`servicehost.dfy` (`getScriptKind`), `compile.dfy`, `executor.dfy`
(instantiate, evaluate, define), `runqueue.dfy` (factory arguments, run
queue) and `facade.dfy` (run, transform, local require).

## Model

| member | source | states |
|---|---|---|
| ModuleRecord.NewRecord | v8env/src/dev-tools/compiler.ts:68-74 | A new record has no output, factory, dependency list or run; keeps the given id, fileName, media type and exports object; a version of 0 (falsy) becomes 1, and any positive version is kept. |
| ModuleRecord.Reload | v8env/src/dev-tools/compiler.ts:76-84 | A reload raises the version by exactly one, forgets everything derived from the old version (output, factory, dependencies, gathering mark, run flag), installs the fresh exports object and keeps id, fileName, source and media type. |
| ModuleRecord.ReloadIsRebuild | v8env/src/dev-tools/compiler.ts:68-84 | A reloaded record is exactly the record the constructor builds at the next version with the same source. |
| LoaderState.ReloadModule | v8env/src/dev-tools/compiler.ts:76-84 | Reloading a registered module keeps the loader invariant, changes no other record, and gives the module an exports object that no other record shares. |
| ModuleRecord.GetText | v8env/src/dev-tools/compiler.ts:86-88 | A snapshot is never longer than the source, and for ordered arguments its length is the distance between the clamped bounds. |
| ModuleRecord.GetTextSymmetric | v8env/src/dev-tools/compiler.ts:86-88 | `getText(a, b)` equals `getText(b, a)`, as JavaScript `substring` swaps its arguments. |
| ModuleRecord.GetTextAdjacent | v8env/src/dev-tools/compiler.ts:86-88 | Two adjacent in-range snapshots concatenate to the snapshot of their union. |
| ModuleRecord.GetTextChars | v8env/src/dev-tools/compiler.ts:86-88 | Each character of an in-range snapshot is the source character at the same offset. |
| ModuleRecord.GetTextWhole | v8env/src/dev-tools/compiler.ts:86-92 | Any range that covers the source, in either order, yields the whole source. |
| ModuleRecord.GetLength | v8env/src/dev-tools/compiler.ts:90-92 | The length is the end of the snapshot that covers the whole source; no larger end yields anything more. |
| ModuleCache.Get | v8env/src/dev-tools/compiler.ts:102-108 | `get` succeeds exactly for a stored fileName, returning the stored record, and otherwise throws NotFound for that name. |
| ModuleCache.Set | v8env/src/dev-tools/compiler.ts:110-112 | `set` stores under the record's own fileName and adds no other key. |
| ModuleCache.SetThenGet | v8env/src/dev-tools/compiler.ts:99-117 | A record that was set is found by `has` and returned by `get`; lookups of every other name are unchanged. |
| ModuleCache.HasIffGet | v8env/src/dev-tools/compiler.ts:102-116 | `has` holds exactly when `get` does not throw. |
| ModuleCache.SetStoredIsNoOp | v8env/src/dev-tools/compiler.ts:110-112 | Setting again a record already stored under its own fileName leaves the cache unchanged. |
| LoaderState.InitialValid | v8env/src/dev-tools/compiler.ts:124-136 | A freshly constructed compiler satisfies the loader invariant and has no module gathering. |
| LoaderState.Enqueue | v8env/src/dev-tools/compiler.ts:327-329 | Pushing onto the run queue appends the module exactly when it is absent, so the module ends up queued and the old queue is a prefix of the new one. |
| Resolver.ResolveAsWritten | v8env/src/dev-tools/compiler.ts:149-170 | Resolution as the source behaves: always fetches; fails with a resolution error exactly when the fetcher yields no module id; returns the fetched fileName; adds at most that record, built pristine from the fetched source with the media type of its id; changes no existing record, the queue or the compile scope. |
| Resolver.Resolve | v8env/src/dev-tools/compiler.ts:149-170 | The same resolution contract, with at most one fetch. A pair already in the (content-keyed) specifier cache with a non-empty fileName is answered with that fileName, without the fetcher and with nothing changed. |
| Resolver.Register | v8env/src/dev-tools/compiler.ts:165-169 | A first sighting registers exactly one new record under the fetched fileName, built from the fetched module, and changes nothing else the invariant protects. |
| Resolver.ResolveAgreesWithAsWritten | v8env/src/dev-tools/compiler.ts:151-154 | Consulting the specifier cache never changes the answer: both resolvers succeed together, return the same fileName and leave the same state (registry, specifier cache, exports heap and the rest), differing only in the fetch the as-written resolver logs. |
| Resolver.SecondResolutionSkipsFetch | v8env/src/dev-tools/compiler.ts:151-168 | A pair that created a record is answered from the cache the next time with nothing changed, while the as-written resolver asks the fetcher again. |
| Resolver.SameFileSameRecord | v8env/src/dev-tools/compiler.ts:161-163 | Two specifiers the fetcher maps to one fileName resolve to the same record, and the second resolution adds no record. |
| Resolver.GetModuleInfo | v8env/src/dev-tools/compiler.ts:172-179 | A registered fileName is returned with nothing changed; an unregistered one is resolved from the empty containing file under the full resolution contract. |
| ServiceHost.GetScriptKind | v8env/src/dev-tools/compiler.ts:422-439 | The script kind is TS exactly for TypeScript records and JSON exactly for Json records (JavaScript otherwise); it succeeds exactly when `getModuleInfo` does and throws its resolution error otherwise. |
| ServiceHost.ScriptKindOfUnregistered | v8env/src/dev-tools/compiler.ts:422-439 | A file first met through the language service gets the kind of the extension of the module id the fetcher returns for it. |
| Media.ScriptKindOf | v8env/src/dev-tools/compiler.ts:426-435 | The media-type to script-kind mapping, in both directions: TS iff TypeScript, JSON iff Json, JS iff JavaScript or unknown. |
| Media.ScriptKindByExtension | v8env/src/dev-tools/compiler.ts:426-432 | Paths ending in `.ts`, `.js` and `.json` are parsed as TS, JS and JSON respectively. |
| Media.Extname | v8env/src/dev-tools/compiler.ts:460 | The extension is a suffix of the path that is empty or starts with its only '.', and contains no '/'. |
| Media.MediaTypeTable | v8env/src/dev-tools/compiler.ts:459-466 | An id whose last segment ends in `.ts`, `.js` or `.json` has media type TypeScript, JavaScript or Json. |
| Media.NoDotIsUnknown | v8env/src/dev-tools/compiler.ts:459-466 | An id without any '.' has no extension and media type Unknown. |
| Compilation.CompileModule | v8env/src/dev-tools/compiler.ts:185-224 | With output present, the output is returned and nothing changes; otherwise one emit is requested. Compilation succeeds exactly when the output is present or the emit reports no diagnostic, is not skipped and yields one file, and returns the stored output or that file plus the sourceURL trailer. A failure names the module and the emit's reason: all diagnostics (three categories, in order), a skipped emit, or the number of output files; the registry is unchanged. Success stores the text with version 1, and no other record changes. |
| Compilation.CompileIsMemoised | v8env/src/dev-tools/compiler.ts:187-189 | After a successful compile, compiling again returns the same text, requests no emit and changes nothing. |
| Compilation.ReloadRecompiles | v8env/src/dev-tools/compiler.ts:76-84 | After a reload the next compile asks for one new emit and, with the source unchanged, yields the same text. |
| Compilation.CompileResetsReloadedVersion | v8env/src/dev-tools/compiler.ts:217-220 | A reload raises the version, and the compile that follows sets it back to 1: the version is not monotonic. |
| Executor.Instantiate | v8env/src/dev-tools/compiler.ts:259-274 | A module that has run is left alone. Otherwise the invariant is kept; no module that was gathering (other than this one) changes or gets queued; no run flag changes and no compiled code is replaced; on success no gathering mark is added and the global `define` binding is removed, while a failure inside `define` leaves this module (and any dependency being defined) marked as gathering. For a module not yet run: if it does not compile, it fails with the emit's error having only asked for that emit; if it compiles, its compiled code was evaluated, it fails with an evaluation error when that code throws, and it succeeds when the code does not call `define`. On success the code did not throw, and when it calls `define` the module holds its factory, a dependency list matching the declared one, no gathering mark and a place in the queue. Every failure is justified in the state it ends in. A resolution error names a dependency other than "require" and "exports" that the fetcher yields no module id for, declared by a module that is still gathering and whose stored code calls `define` with it. A compile error names the module the global `define` is still bound to, which has no stored code and whose emit fails that way. An evaluation error names the module `define` is still bound to, whose stored code throws. |
| Executor.Evaluate | v8env/src/dev-tools/compiler.ts:270-273 | Evaluates the module's stored compiled code, with `define` bound to the module. The evaluation is the first call logged and keeps that code. Code that throws fails with an evaluation error, with the `define` binding still installed and no record changed. Code that does not call `define` succeeds with no record and the queue unchanged. Code that calls `define` leaves the module defined (factory stored, dependency list matching, not gathering, queued) on success, and still gathering on failure. Success ends with no `define` binding. Every failure is justified in the state it ends in. A resolution error names a dependency other than "require" and "exports" that the fetcher yields no module id for, declared by a module that is still gathering and whose stored code calls `define` with it. A compile error names the module the global `define` is still bound to, which has no stored code and whose emit fails that way. An evaluation error names the module `define` is still bound to, whose stored code throws. |
| Executor.Define | v8env/src/dev-tools/compiler.ts:304-331 | `define` stores the factory. On success the module has its gathering mark cleared, a dependency list that matches the declared one position by position (sentinels kept, other specifiers replaced by the fileName they resolve to from the module), and is queued, at the back when it was not queued before. Every dependency it had to instantiate (not a sentinel, not gathering, not run) had its code evaluated, and is queued when that code calls `define`. A failure leaves the module marked as gathering. Every failure is justified in the state it ends in. A resolution error names a dependency other than "require" and "exports" that the fetcher yields no module id for, declared by a module that is still gathering and whose stored code calls `define` with it. A compile error names the module the global `define` is still bound to, which has no stored code and whose emit fails that way. An evaluation error names the module `define` is still bound to, whose stored code throws. |
| Executor.Gather | v8env/src/dev-tools/compiler.ts:312-325 | The mapped dependency list matches the declared list position by position, every entry is a sentinel or a registered record, and no gathering module changes or is queued; every entry it had to instantiate had its code evaluated and is queued when that code calls `define`. Every failure is justified in the state it ends in. A resolution error names a dependency other than "require" and "exports" that the fetcher yields no module id for, declared by a module that is still gathering and whose stored code calls `define` with it. A compile error names the module the global `define` is still bound to, which has no stored code and whose emit fails that way. An evaluation error names the module `define` is still bound to, whose stored code throws. |
| Executor.GatherOne | v8env/src/dev-tools/compiler.ts:313-324 | One declared dependency becomes itself (a sentinel) or the registered fileName it resolves to from the defining module; a resolved dependency that is neither gathering nor run was instantiated: its code was evaluated without throwing, and when it calls `define` the dependency is defined and queued. Every failure is justified in the state it ends in. A resolution error names a dependency other than "require" and "exports" that the fetcher yields no module id for, declared by a module that is still gathering and whose stored code calls `define` with it. A compile error names the module the global `define` is still bound to, which has no stored code and whose emit fails that way. An evaluation error names the module `define` is still bound to, whose stored code throws. |
| Executor.BackEdgeIsOnlyRecorded | v8env/src/dev-tools/compiler.ts:320-323 | The cycle guard: a dependency that resolves to a module still gathering is recorded by its fileName with nothing instantiated and no further change. |
| Executor.DependenciesQueuedFirst | v8env/src/dev-tools/compiler.ts:312-329 | Queue order: when `define` queues a module that was not queued, every dependency it had to instantiate and whose code calls `define` is already in the queue ahead of it, so its factory runs first; back edges of a cycle are exempt. |
| Executor.GatherSentinels | v8env/src/dev-tools/compiler.ts:312-325 | Mapping a dependency list made only of "require" and "exports" succeeds, returns the list unchanged, and changes no state. |
| Executor.DefineSentinels | v8env/src/dev-tools/compiler.ts:304-331 | A `define` whose dependencies are only sentinels succeeds, storing the factory and the declared list with no gathering mark and queueing the module, and changes nothing else. |
| Executor.InstantiateNoDefine | v8env/src/dev-tools/compiler.ts:259-274 | A module not yet run whose code compiles and does not call `define` instantiates successfully and queues nothing. |
| Executor.InstantiateLeaf | v8env/src/dev-tools/compiler.ts:259-331 | A module not yet run whose code compiles and calls `define` with only "require" and "exports" instantiates successfully. It is then ready to run with that factory and queued at the back, and no other record changes. |
| Executor.GatherOneLeaf | v8env/src/dev-tools/compiler.ts:313-324 | A declared dependency seen for the first time, whose fetched source compiles to code calling `define` with only sentinels, is resolved to its fetched fileName, registered, instantiated and queued at the back, ready to run. The defining module's record is unchanged. |
| Executor.DefineOneDependency | v8env/src/dev-tools/compiler.ts:304-331 | A `define` whose single declared dependency is such a first-seen leaf succeeds. It queues the dependency and then the module, both ready to run with their factories. |
| Executor.InstantiateOneDependency | v8env/src/dev-tools/compiler.ts:259-331 | A module not yet run and not queued, whose code compiles and calls `define` with one first-seen leaf dependency, instantiates successfully. The queue gains the dependency and then the module, both ready to run. |
| RunQueue.FactoryArguments | v8env/src/dev-tools/compiler.ts:279-299 | Throws exactly when the dependency list is unrecorded; otherwise one argument per recorded dependency: a local require bound to the module for "require", its own exports object for "exports", and the dependency's exports object for anything else. |
| RunQueue.DependencyLookupIsPure | v8env/src/dev-tools/compiler.ts:294-297 | The `getModuleInfo` lookup of a recorded dependency finds the registered record and changes nothing, so the argument is that record's exports object. |
| RunQueue.SharedExports | v8env/src/dev-tools/compiler.ts:284-298 | A module's own "exports" argument is the very object a dependent receives for it, so the dependent sees what the module's factory wrote. |
| RunQueue.ApplyPrefix | v8env/src/dev-tools/compiler.ts:250 | A factory call changes exactly the exports objects it wrote into and leaves every other object as it was. |
| RunQueue.LastWriteWins | v8env/src/dev-tools/compiler.ts:250 | An object written at a position with no later write holds that position's contents after the call. |
| RunQueue.Drain | v8env/src/dev-tools/compiler.ts:237-253 | On success the queue is empty, the log gained exactly one factory call per queued module in queue order, and each queued module is marked as run. On failure the drain stopped at a popped module, left as it was, for a reason its record shows: no factory; already run; no dependency list; or, with all checks passed, its factory threw on the views of the last logged call. Records change only in their run flag, none is added, and the log only grows. |
| RunQueue.DrainOkOnlyIfRunnable | v8env/src/dev-tools/compiler.ts:243-251 | A drain that completes found every queued module with a factory, not yet run and with its dependency list. |
| RunQueue.DrainCompletes | v8env/src/dev-tools/compiler.ts:237-253 | The converse of `DrainOkOnlyIfRunnable`: a drain whose queued modules all have a factory, a dependency list and no run, with factories that return on any arguments, completes. |
| RunQueue.DrainPair | v8env/src/dev-tools/compiler.ts:237-253 | A queue of two such modules drains successfully. Both are marked as run, and the first two calls the drain logs are their factories, in queue order. |
| RunQueue.DrainRejectsRunRecord | v8env/src/dev-tools/compiler.ts:248 | A queue holding a module that has already run makes the drain throw: no factory runs twice through the queue. |
| RunQueue.DrainRejectsMissingFactory | v8env/src/dev-tools/compiler.ts:244-247 | A queue holding a module without a factory makes the drain throw. |
| RunQueue.DrainFront | v8env/src/dev-tools/compiler.ts:243-252 | One drain step: the front module's factory is called with the views, over the current heap, of the arguments `getFactoryArguments` builds, and the call is logged with those views; a throw ends the drain with the module off the queue, and a return applies the factory's writes to the heap, marks the module as run and drains the rest. |
| RunQueue.DrainCallsFrontFirst | v8env/src/dev-tools/compiler.ts:243-250 | A drain whose front module can run calls that module's factory first, with the views of its arguments over the current heap. |
| RunQueue.OwnExportsWritten | v8env/src/dev-tools/compiler.ts:250 | When a factory writes new contents at its "exports" position and at no later position into the same object, the module's exports object holds those contents afterwards. |
| RunQueue.ExportsSeenByDependent | v8env/src/dev-tools/compiler.ts:243-252 | With a module and then a dependent of it at the front of the queue, the dependent's factory is called next and sees, at the position of that dependency, the contents the module's factory wrote into its own exports object. |
| Facade.Run | v8env/src/dev-tools/compiler.ts:138-147 | Fails with a resolution error when the fetcher yields no module id. On success it returns the fetched fileName, which is registered and the only root of the compile scope; the run queue is empty with every previously queued module run, and the invariant holds. A module it had to instantiate (unregistered, or without a dependency list and not run) has compiled code that was evaluated; when that code calls `define`, its factory was called and the module is marked as run. Every failure is justified. It is a resolution error for the given pair, which the fetcher yields no module id for. Or it is a load failure as stated for `Executor.Instantiate`, seen in the final state: an unresolvable dependency declared by a gathering module, a failed emit or throwing code of the module `define` is bound to. Or it is a drain rejection of a record, seen in the final state: a failed check, or a factory that threw on the views it was last called with. |
| Facade.RunAgainDoesNothing | v8env/src/dev-tools/compiler.ts:141-145 | Running a module whose dependencies are recorded, with an empty queue, compiles, evaluates and runs nothing and changes no record or exports object. |
| Facade.RunLeaf | v8env/src/dev-tools/compiler.ts:138-147 | For a module seen for the first time with nothing queued, whose fetched source compiles: `run` succeeds when the compiled code does not call `define`. It also succeeds when the code calls `define` with only "require" and "exports" and a factory that returns; then the factory was called and the module is marked as run. |
| Facade.RunWithOneDependency | v8env/src/dev-tools/compiler.ts:138-147 | Take a module seen for the first time with nothing queued. Its source compiles to code that calls `define` with one declared dependency and a factory that returns. The dependency resolves from it to another first-seen module, whose source compiles to code calling `define` with only sentinels and a factory that returns. Then `run` succeeds, both modules are marked as run, and the dependency's factory is called before the module's. |
| Facade.Transform | v8env/src/dev-tools/compiler.ts:226-231 | Fails with a resolution error when the id does not resolve. Otherwise the id becomes the compile scope, and the outcome is that of compiling the resolved record: success exactly when it has output or its emit reports no diagnostic, is not skipped and yields one file; the returned text is the stored output or that file plus the sourceURL trailer; a failure carries the emit's reason. The run queue and every run flag are untouched. |
| Facade.TransformFirstCompile | v8env/src/dev-tools/compiler.ts:226-231 | The first transform of an id succeeds exactly when emitting the fetched source reports no diagnostic, is not skipped and yields one file, and then returns that file with the sourceURL trailer. |
| Facade.TransformIsMemoised | v8env/src/dev-tools/compiler.ts:226-231 | A second transform of the same id returns the same text without a new emit and changes no record. |
| Facade.LocalRequire | v8env/src/dev-tools/compiler.ts:337-356 | Throws exactly when not given one specifier, with nothing changed. With one specifier it returns to its caller with the state `run` leaves: the callback exactly when `run` succeeds, carrying the required module's exports object with the queue drained; otherwise the errback with `run`'s error, the resolution error for an unresolvable specifier. |

## Left out

- Compilation.CompileModule: the language service is an oracle, and emit is a deterministic function of fileName and source text. In the source, the host callbacks the service makes during an emit reach back into the loader. `resolveModuleNames` (v8env/src/dev-tools/compiler.ts:411-421) and `getDefaultLibFileName` (lines 393-398) call `resolveModule`. `getScriptVersion`, `getScriptSnapshot`, `getScriptKind` and `fileExists` (lines 378-389 and 422-448) call `getModuleInfo`. Those calls can fetch and register records for the files a module imports, and a `getModuleInfo` of a name the fetcher cannot resolve throws a resolution error out of the emit. The model's compile registers no record (the registry keeps its keys) and logs no fetch. It fails only for diagnostics, a skipped emit or other than one output file. `ServiceHost.GetScriptKind` models one such callback on its own. `getScriptFileNames` is the model's `scriptFileNames`.
- `fetchModule` is a finite table of the collaborator's answers; file system and network access behind it are outside the model.
- Media.Extname: `extname` is imported from the repository's own `./path` module (v8env/src/dev-tools/compiler.ts:5), which is not part of this model. The model takes the suffix of the last path segment from its last '.', and gives empty when there is no '.' or the '.' leads the segment. Two inputs would differ from Node's `path.extname`, should the helper follow it. A last segment `..` gives "." here and "" there. A trailing '/' is not stripped here, so `a.ts/` has no extension here and ".ts" there.
- The compiler settings (v8env/src/dev-tools/compiler.ts:359-368) matter to the model only through `allowJs`, which is true (line 360), so unknown media types and unresolved files are parsed as JavaScript.
- `ServiceHost.GetScriptKind`: the source's unresolved-file branch (line 437) is unreachable because `getModuleInfo` throws first; the model returns that throw.
- Evaluation of compiled code and the bodies of factories are oracles: evaluation calls `define` at most once, and a factory only writes into the exports objects it was passed. An evaluation either does not call `define`, calls it, or throws without calling it. Code that calls `define` and then throws cannot be expressed. In the source (v8env/src/dev-tools/compiler.ts:271-273) such a module stays defined and queued, and `global.define` stays bound to it. The model has no outcome for this case. Its throwing evaluation changes no record. A factory that calls `require` re-entrantly during a drain is not modelled, so a drain never sees modules queued while it runs.
- `Facade.LocalRequire`: the source's `try` also catches an exception thrown by the callback itself and hands it to the errback; callbacks are not modelled as code, so that path is absent.
- ModuleRecord.GetText / ModuleRecord.GetLength: JavaScript strings index UTF-16 code units, while the model indexes the characters of a Dafny string; offsets and lengths differ for text with characters outside the Basic Multilingual Plane.
- Logging and tracing (`trace`, `console.*`) have no effect on the model.
- `getChangeRange` always returns undefined and takes part in no property; it is not modelled.
- The source returns record objects; the model returns their fileName, which identifies the record because the registry never replaces a record under an existing key.
- The persistent code cache and the `recompile` switch (fixed to false in the source) are not modelled.
- The rest of the repository (other runtime globals, timers, the native host) is not part of this model.

## Findings

| source | as written | input that shows it | evidently intended | confidence | as-written member | corrected member |
|---|---|---|---|---|---|---|
| v8env/src/dev-tools/compiler.ts:151-168 | The specifier cache is a Map keyed by a freshly built two-element array; JavaScript Maps compare such keys by identity, so the lookup at line 151 never finds the entry stored at line 168 and every resolution calls the fetcher. | Resolve the same (specifier, containing file) pair twice: the second resolution fetches again. | Key the cache by the pair's contents so a repeated pair is answered without a fetch. | not executed | Resolver.SecondResolutionSkipsFetch | Resolver.Resolve |

=== FILE: base.dfy ===
/**
  Vocabulary shared by every part of the module loader model: names,
  optional values, the failures the loader raises, runtime values handed to
  factories, and the calls the loader makes into its collaborators.
 */
module Base {

  datatype Option<T> = None | Some(value: T)

  /** Local name of a compiled module; the registry's primary key. */
  type FileName = string

  /** External name of a module, a relative path or a URL. */
  type Specifier = string

  /** Identity of a JavaScript object held in the exports heap. */
  type ObjRef = nat

  /** Identity of the factory closure a module hands to `define`. */
  type FactoryId = nat

  /** Contents of an exports object: property name to (abstract) value. */
  type Props = map<string, string>

  /** Every way an operation of the loader can throw. */
  datatype Error =
    | NotFound(fileName: FileName)
    | ResolutionError(specifier: Specifier, containingFile: string)
    | CompileError(fileName: FileName, diagnostics: seq<string>)
    | EmitSkipped(fileName: FileName)
    | NotSingleOutput(fileName: FileName, count: nat)
    | EvalError(fileName: FileName)
    | NoFactory(fileName: FileName)
    | AlreadyRun(fileName: FileName)
    | DepsUnresolved(fileName: FileName)
    | FactoryThrew(fileName: FileName)
    | LocalRequireArity(count: nat)

  datatype Result<T> = Success(value: T) | Failure(error: Error)

  /** An argument passed to a factory: an exports object, or a local require bound to a module. */
  datatype Value = ExportsObject(ref: ObjRef) | LocalRequireFn(owner: FileName)

  /** What a factory can observe of an argument at the moment it is called. */
  datatype ArgView = ObjectView(ref: ObjRef, props: Props) | RequireView(owner: FileName)

  /**
    A call from the loader into one of its collaborators, in the order
    made; a factory call records what the factory saw of its arguments.
   */
  datatype Call =
    | FetchCall(specifier: Specifier, containingFile: string)
    | EmitCall(fileName: FileName)
    | EvalCall(fileName: FileName)
    | FactoryCall(fileName: FileName, views: seq<ArgView>)

  /** The two dependency names `define` passes through unresolved. */
  predicate IsSentinel(d: string) {
    d == "require" || d == "exports"
  }
}

=== FILE: cache.dfy ===
/**
  `ModuleCache`: the registry of module records keyed by fileName.
 */
module ModuleCache {
  import opened Base
  import opened ModuleRecord

  type Registry = map<FileName, Record>

  /** `get`: the record stored under `fileName`, or NotFound. */
  function Get(reg: Registry, fileName: FileName): (r: Result<Record>)
    ensures r.Success? <==> fileName in reg
    ensures r.Success? ==> r.value == reg[fileName]
    ensures r.Failure? ==> r.error == NotFound(fileName)
  {
    if fileName in reg then Success(reg[fileName]) else Failure(NotFound(fileName))
  }

  /** `set`: store a record under its own fileName, replacing any previous one. */
  function Set(reg: Registry, m: Record): (r: Registry)
    ensures r.Keys == reg.Keys + {m.fileName}
  {
    reg[m.fileName := m]
  }

  /** `has`: whether a record is stored under `fileName`. */
  function Has(reg: Registry, fileName: FileName): bool {
    fileName in reg
  }

  /** A record that was set is found again, and nothing else is disturbed. */
  lemma SetThenGet(reg: Registry, m: Record, other: FileName)
    ensures Has(Set(reg, m), m.fileName)
    ensures Get(Set(reg, m), m.fileName) == Success(m)
    ensures other != m.fileName ==> Get(Set(reg, m), other) == Get(reg, other)
  {
  }

  /** `has` holds exactly when `get` does not throw. */
  lemma HasIffGet(reg: Registry, fileName: FileName)
    ensures Has(reg, fileName) <==> Get(reg, fileName).Success?
  {
  }

  /** Setting a record that is already stored under its fileName changes nothing. */
  lemma SetStoredIsNoOp(reg: Registry, fileName: FileName)
    requires fileName in reg && reg[fileName].fileName == fileName
    ensures Set(reg, reg[fileName]) == reg
  {
  }
}

=== FILE: collaborators.dfy ===
/**
  The loader's collaborators, as deterministic oracles: the module fetcher,
  the language service's emit and diagnostics, evaluation of compiled code,
  and the user factories.
 */
module Collaborators {
  import opened Base

  /** What the fetcher returns; an empty `moduleId` means the specifier did not resolve. */
  datatype Fetched = Fetched(moduleId: string, fileName: FileName, sourceCode: string)

  /**
    What the language service reports for one file: the three diagnostic
    categories the compiler collects, the emitted output files, and whether
    the emit was skipped.
   */
  datatype EmitOutput = EmitOutput(
    optionsDiagnostics: seq<string>,
    syntacticDiagnostics: seq<string>,
    semanticDiagnostics: seq<string>,
    outputFiles: seq<string>,
    emitSkipped: bool)

  /**
    What evaluating compiled code does: nothing module-shaped, one call of
    the installed `define` with a dependency list and a factory, or a throw
    before any `define` call.
   */
  datatype EvalOutcome = NoDefine | CallsDefine(deps: seq<string>, factory: FactoryId) | Throws

  /**
    What calling a factory does: it returns after writing new contents
    (`Some`) into some of the exports objects it was passed, position by
    position, or it throws.
   */
  datatype FactoryOutcome = Returned(writes: seq<Option<Props>>) | Threw

  /**
    The environment of one compiler instance. The fetcher is a finite
    table: a (specifier, containing file) pair that is not in it does not
    resolve.
   */
  datatype Host = Host(
    fetchTable: map<(Specifier, string), Fetched>,
    emit: (FileName, string) -> EmitOutput,
    eval: string -> EvalOutcome,
    invoke: (FactoryId, seq<ArgView>) -> FactoryOutcome)

  /** `fetchModule(specifier, containingFile)`. */
  function FetchModule(host: Host, specifier: Specifier, containingFile: string): Fetched {
    if (specifier, containingFile) in host.fetchTable then host.fetchTable[(specifier, containingFile)]
    else Fetched("", "", "")
  }

  /** Every fileName the fetcher can ever hand out. */
  function FetchedNames(host: Host): set<FileName> {
    set k | k in host.fetchTable :: host.fetchTable[k].fileName
  }

  lemma FetchedNameIsKnown(host: Host, specifier: Specifier, containingFile: string)
    requires FetchModule(host, specifier, containingFile).moduleId != ""
    ensures FetchModule(host, specifier, containingFile).fileName in FetchedNames(host)
  {
    var k := (specifier, containingFile);
    assert k in host.fetchTable;
    assert host.fetchTable[k].fileName in FetchedNames(host);
  }
}

=== FILE: compile.dfy ===
/**
  The compile step (`compile`): ask the language service for the emitted
  JavaScript of one module, reject any diagnostic, insist on exactly one
  emitted file, append a `sourceURL` trailer, and remember the result.
 */
module Compilation {
  import opened Base
  import opened ModuleRecord
  import opened Collaborators
  import opened LoaderState

  /** The trailer that names the module in stack traces. */
  function SourceUrlTrailer(fileName: FileName): string {
    "\n//# sourceURL=" + fileName
  }

  /** Diagnostics of all three categories, in the order the compiler collects them. */
  function AllDiagnostics(out: EmitOutput): seq<string> {
    out.optionsDiagnostics + out.syntacticDiagnostics + out.semanticDiagnostics
  }

  /** A memoised compile result is present: a non-empty (truthy) `outputCode`. */
  predicate HasOutput(m: Record) {
    m.outputCode.Some? && m.outputCode.value != ""
  }

  /** The language service's emit of a record's source: no diagnostic, not skipped, exactly one output file. */
  predicate EmitSucceeds(host: Host, m: Record) {
    var out := host.emit(m.fileName, m.inputCode);
    |AllDiagnostics(out)| == 0 && !out.emitSkipped && |out.outputFiles| == 1
  }

  /** A record compiles when its code is stored or its emit succeeds. */
  predicate Compilable(host: Host, m: Record) {
    HasOutput(m) || EmitSucceeds(host, m)
  }

  /** The code a compilable record compiles to: the stored code, or the single emitted file with the trailer. */
  function CompiledCode(host: Host, m: Record): string
    requires Compilable(host, m)
  {
    if HasOutput(m) then m.outputCode.value
    else host.emit(m.fileName, m.inputCode).outputFiles[0] + SourceUrlTrailer(m.fileName)
  }

  /**
    Does `e` report how the emit of `m`'s source fails? The checks come in
    order: any diagnostic, then a skipped emit, then an output count other
    than one.
   */
  predicate EmitFailure(host: Host, m: Record, e: Error) {
    var out := host.emit(m.fileName, m.inputCode);
    var ds := AllDiagnostics(out);
    match e
    case CompileError(f, reported) => f == m.fileName && |ds| > 0 && reported == ds
    case EmitSkipped(f) => f == m.fileName && |ds| == 0 && out.emitSkipped
    case NotSingleOutput(f, n) => f == m.fileName && |ds| == 0 && !out.emitSkipped && n == |out.outputFiles| && n != 1
    case _ => false
  }

  /**
    What compiling `fileName` may change: its `outputCode` and `version`,
    and the call log. Every other record and every other part of the state
    stays as it was.
   */
  predicate OnlyCompiles(host: Host, st: State, st': State, fileName: FileName)
    requires fileName in st.registry
  {
    && Evolves(host, st, st')
    && st'.registry.Keys == st.registry.Keys
    && Untouched(st, st', st.registry.Keys - {fileName})
    && st'.registry[fileName] == st.registry[fileName].(outputCode := st'.registry[fileName].outputCode,
                                                       version := st'.registry[fileName].version)
    && Gathering(st') == Gathering(st)
    && st' == st.(registry := st'.registry, calls := st'.calls)
  }

  function CompileModule(host: Host, st: State, fileName: FileName): (o: Out<string>)
    requires Valid(host, st) && fileName in st.registry
    ensures OnlyCompiles(host, st, o.st, fileName)
    ensures HasOutput(st.registry[fileName]) ==> o == Ok(st.registry[fileName].outputCode.value, st)
    ensures !HasOutput(st.registry[fileName]) ==>
              var out := host.emit(fileName, st.registry[fileName].inputCode);
              && o.st.calls == st.calls + [EmitCall(fileName)]
              && (o.Fail? <==> |AllDiagnostics(out)| > 0 || out.emitSkipped || |out.outputFiles| != 1)
              && (|AllDiagnostics(out)| > 0 ==> o.Fail? && o.err == CompileError(fileName, AllDiagnostics(out)))
              && (|AllDiagnostics(out)| == 0 && out.emitSkipped ==> o.Fail? && o.err == EmitSkipped(fileName))
              && (o.Fail? ==> o.st.registry == st.registry)
              && (o.Ok? ==> o.value == out.outputFiles[0] + SourceUrlTrailer(fileName))
    ensures o.Ok? ==> HasOutput(o.st.registry[fileName]) && o.st.registry[fileName].outputCode == Some(o.value)
    ensures o.Ok? && !HasOutput(st.registry[fileName]) ==> o.st.registry[fileName].version == 1
    ensures o.Ok? <==> Compilable(host, st.registry[fileName])
    ensures o.Ok? ==> o.value == CompiledCode(host, st.registry[fileName])
    ensures o.Fail? ==> EmitFailure(host, st.registry[fileName], o.err) && o.st.registry == st.registry
  {
    var m := st.registry[fileName];
    if HasOutput(m) then
      Ok(m.outputCode.value, st)
    else
      var out := host.emit(m.fileName, m.inputCode);
      var st1 := st.(calls := st.calls + [EmitCall(fileName)]);
      var diagnostics := AllDiagnostics(out);
      if |diagnostics| > 0 then
        Fail(CompileError(fileName, diagnostics), st1)
      else if out.emitSkipped then
        Fail(EmitSkipped(fileName), st1)
      else if |out.outputFiles| != 1 then
        Fail(NotSingleOutput(fileName, |out.outputFiles|), st1)
      else
        var code := out.outputFiles[0] + SourceUrlTrailer(m.fileName);
        var m' := m.(outputCode := Some(code), version := 1);
        var st2 := st1.(registry := st1.registry[fileName := m']);
        RecompileFrame(host, st, st2, fileName, Some(code), 1);
        Ok(code, st2)
  }

  lemma RecompileFrame(host: Host, st: State, st': State, fileName: FileName, code: Option<string>, version: nat)
    requires Valid(host, st) && fileName in st.registry
    requires st.calls <= st'.calls
    requires st' == st.(registry := st.registry[fileName := st.registry[fileName].(outputCode := code, version := version)],
                        calls := st'.calls)
    ensures OnlyCompiles(host, st, st', fileName)
  {
    assert Gathering(st') == Gathering(st);
    forall f | f in st'.registry && st'.registry[f].deps.Some?
      ensures DepsIn(st'.registry[f].deps.value, st'.registry)
    {
      DepsInGrow(st.registry[f].deps.value, st.registry, st'.registry);
    }
  }

  /**
    Memoisation: once a compile has succeeded, compiling again returns the
    same text and changes nothing, with no further emit requested.
   */
  lemma CompileIsMemoised(host: Host, st: State, fileName: FileName)
    requires Valid(host, st) && fileName in st.registry
    requires CompileModule(host, st, fileName).Ok?
    ensures var o := CompileModule(host, st, fileName);
            CompileModule(host, o.st, fileName) == Ok(o.value, o.st)
  {
  }

  /**
    After a reload the next compile asks the language service again, and,
    the emit being deterministic and the source unchanged, produces the
    same text as the compile before the reload.
   */
  lemma ReloadRecompiles(host: Host, st: State, fileName: FileName)
    requires Valid(host, st) && fileName in st.registry
    requires !HasOutput(st.registry[fileName])
    requires CompileModule(host, st, fileName).Ok?
    ensures var o := CompileModule(host, st, fileName);
            var r := CompileModule(host, ReloadModule(host, o.st, fileName), fileName);
            && r.Ok? && r.value == o.value
            && r.st.calls == o.st.calls + [EmitCall(fileName)]
  {
  }

  /**
    The version is not monotonic across a compile: a reload raises it, and
    the compile that follows puts it back to 1.
   */
  lemma CompileResetsReloadedVersion(host: Host, st: State, fileName: FileName)
    requires Valid(host, st) && fileName in st.registry
    requires CompileModule(host, ReloadModule(host, st, fileName), fileName).Ok?
    ensures ReloadModule(host, st, fileName).registry[fileName].version > st.registry[fileName].version
    ensures CompileModule(host, ReloadModule(host, st, fileName), fileName).st.registry[fileName].version == 1
  {
  }
}

=== FILE: executor.dfy ===
/**
  The module graph executor: `instantiateModule` and the record-scoped
  `define` callback built by `makeDefine`.

  Evaluating a module's compiled code calls the `define` installed for it;
  `define` resolves each declared dependency and instantiates those not
  already gathering their own dependencies, then queues the module. A
  dependency that is still gathering is part of a cycle back to a module
  on the current path: only the edge is recorded. Factories run later, in
  queue order.
 */
module Executor {
  import opened Base
  import opened ModuleRecord
  import opened Collaborators
  import opened LoaderState
  import opened Resolver
  import opened Compilation

  /**
    How `define` records one declared dependency: the sentinels "require"
    and "exports" are kept, every other specifier becomes the fileName it
    resolves to from the defining module.
   */
  predicate DepSlot(host: Host, owner: FileName, declared: string, resolved: string) {
    if IsSentinel(declared) then resolved == declared
    else resolved == FetchModule(host, declared, owner).fileName
  }

  predicate DepsMatch(host: Host, owner: FileName, declared: seq<string>, resolved: seq<string>) {
    && |declared| == |resolved|
    && forall i :: 0 <= i < |declared| ==> DepSlot(host, owner, declared[i], resolved[i])
  }

  /** Records appended to the run queue between `st` and `st'` are outside `s`. */
  predicate EnqueuesOnly(st: State, st': State, s: set<FileName>) {
    forall i :: |st.runQueue| <= i < |st'.runQueue| ==> st'.runQueue[i] !in s
  }

  /** Compiled code, once stored, is never replaced. */
  predicate OutputKept(st: State, st': State) {
    forall g :: g in st.registry && HasOutput(st.registry[g]) ==>
      g in st'.registry && st'.registry[g].outputCode == st.registry[g].outputCode
  }

  /**
    A step of instantiation from `st` to `st'` that keeps the invariant,
    leaves the records in `keep` as they were, never queues one of them and
    replaces no compiled code.
   */
  predicate Frame(host: Host, st: State, st': State, keep: set<FileName>) {
    && Evolves(host, st, st')
    && Untouched(st, st', keep)
    && EnqueuesOnly(st, st', keep)
    && OutputKept(st, st')
  }

  /** `fileName`'s code was evaluated by a call made after the log `before`. */
  predicate Evaluated(before: seq<Call>, after: seq<Call>, fileName: FileName) {
    |before| <= |after| && EvalCall(fileName) in after[|before|..]
  }

  /** The stored compiled code of a module calls `define` when evaluated. */
  predicate DefinesFactory(host: Host, m: Record) {
    HasOutput(m) && host.eval(m.outputCode.value).CallsDefine?
  }

  /**
    What a completed `define` call with `deps` and `factory` leaves on the
    record `owner`: the factory, the dependency list mapped from `deps`, no
    gathering mark, and a place in the run queue.
   */
  predicate Defined(host: Host, st: State, owner: FileName, deps: seq<string>, factory: FactoryId) {
    && owner in st.registry
    && st.registry[owner].factory == Some(factory)
    && !st.registry[owner].gatheringDeps
    && st.registry[owner].deps.Some?
    && DepsMatch(host, owner, deps, st.registry[owner].deps.value)
    && owner in st.runQueue
  }

  /**
    What instantiating a module that had not run leaves behind: its
    compiled code is stored and was evaluated after `st`, the evaluation did
    not throw, and, when the code calls `define`, the module is defined and
    queued.
   */
  predicate Instantiated(host: Host, st: State, fileName: FileName, st': State) {
    && fileName in st'.registry
    && HasOutput(st'.registry[fileName])
    && Evaluated(st.calls, st'.calls, fileName)
    && var e := host.eval(st'.registry[fileName].outputCode.value);
       && !e.Throws?
       && (e.CallsDefine? ==> Defined(host, st', fileName, e.deps, e.factory))
  }

  /**
    A declared dependency, resolved to `d`, that `define` has to
    instantiate: not a sentinel, not gathering (not in `gathering`) and not
    yet run.
   */
  predicate MustInstantiate(gathering: set<FileName>, st': State, declared: string, d: FileName) {
    && !IsSentinel(declared)
    && d in st'.registry
    && d !in gathering
    && !st'.registry[d].hasRun
  }

  /**
    What instantiating a dependency `d` during `define` leaves visible once
    `define` is over: its code was evaluated, and it is queued when that
    code calls `define`.
   */
  predicate DepInstantiated(host: Host, st: State, st': State, d: FileName) {
    && d in st'.registry
    && Evaluated(st.calls, st'.calls, d)
    && (DefinesFactory(host, st'.registry[d]) ==> d in st'.runQueue)
  }

  /** What `instantiateModule` promises. */
  predicate InstantiatePost(host: Host, st: State, fileName: FileName, o: Out<()>) {
    && fileName in st.registry
    && Frame(host, st, o.st, Gathering(st) - {fileName})
    && (o.Ok? ==> Gathering(st) - {fileName} <= Gathering(o.st) <= Gathering(st))
    && (o.Ok? ==> o.st.define == if st.registry[fileName].hasRun then st.define else None)
    && (st.registry[fileName].hasRun ==> o == Ok((), st))
  }

  /** What the `define` callback promises. */
  predicate DefinePost(host: Host, st: State, owner: FileName, deps: seq<string>, factory: FactoryId, o: Out<()>) {
    && owner in st.registry
    && Frame(host, st, o.st, Gathering(st) - {owner})
    && o.st.registry[owner].factory == Some(factory)
    && (o.Fail? ==> owner in Gathering(o.st))
    && (o.Ok? ==> Gathering(o.st) == Gathering(st) - {owner})
    && (o.Ok? ==>
          var m := o.st.registry[owner];
          && !m.gatheringDeps
          && m.deps.Some?
          && DepsMatch(host, owner, deps, m.deps.value))
    && (o.Ok? ==> owner in o.st.runQueue)
    && (o.Ok? && owner !in st.runQueue ==> o.st.runQueue[|o.st.runQueue| - 1] == owner)
  }

  /** What mapping the declared dependencies promises. */
  predicate GatherPost(host: Host, st: State, owner: FileName, todo: seq<string>, o: Out<seq<string>>) {
    && Frame(host, st, o.st, Gathering(st))
    && (o.Ok? ==> Gathering(o.st) == Gathering(st))
    && (o.Ok? ==> DepsMatch(host, owner, todo, o.value) && DepsIn(o.value, o.st.registry))
  }

  /** What `instantiateModule` does to a module that has not run: ask for an emit unless the code is stored, then evaluate it. */
  predicate InstantiateEffect(host: Host, st: State, fileName: FileName, o: Out<()>) {
    fileName in st.registry && !st.registry[fileName].hasRun ==>
      && (!HasOutput(st.registry[fileName]) ==> |st.calls| < |o.st.calls| && o.st.calls[|st.calls|] == EmitCall(fileName))
      && (o.Ok? ==> Instantiated(host, st, fileName, o.st))
  }

  /**
    `instantiateModule` on a module that has not run, by what its
    collaborators do: a module that does not compile fails with the emit's
    error having evaluated nothing; one that compiles has its compiled
    code evaluated, fails with an evaluation error when that code throws,
    and succeeds when the code does not call `define`.
   */
  predicate InstantiateOutcome(host: Host, st: State, fileName: FileName, o: Out<()>) {
    fileName in st.registry && !st.registry[fileName].hasRun ==>
      var m := st.registry[fileName];
      && (!Compilable(host, m) ==>
            o.Fail? && EmitFailure(host, m, o.err) && o.st.calls == st.calls + [EmitCall(fileName)])
      && (Compilable(host, m) ==>
            var e := host.eval(CompiledCode(host, m));
            && Evaluated(st.calls, o.st.calls, fileName)
            && (e.Throws? ==> o.Fail? && o.err == EvalError(fileName))
            && (e.NoDefine? ==> o.Ok?))
  }

  /** The registered record `g`, which has no stored code, fails to compile with `e`. */
  predicate EmitFailed(host: Host, st: State, g: FileName, e: Error) {
    g in st.registry && !HasOutput(st.registry[g]) && EmitFailure(host, st.registry[g], e)
  }

  /**
    `owner` is gathering the dependencies its stored code passes to
    `define`, and `declared` is one of them.
   */
  predicate Declares(host: Host, st: State, owner: FileName, declared: string) {
    && owner in st.registry
    && st.registry[owner].gatheringDeps
    && DefinesFactory(host, st.registry[owner])
    && declared in host.eval(st.registry[owner].outputCode.value).deps
  }

  /** Every entry of `todo` is a dependency that `owner` declares and is gathering. */
  predicate DeclaresAll(host: Host, st: State, owner: FileName, todo: seq<string>) {
    forall i :: 0 <= i < |todo| ==> Declares(host, st, owner, todo[i])
  }

  /**
    An error raised while loading modules is one the collaborators really
    produced, seen in the state it is raised in: a non-sentinel dependency,
    declared by a module still gathering its dependencies, that the fetcher
    yields no module id for; or a failure of the module `define` is still
    bound to, which is either an emit failure of its source (no code
    stored) or its stored code throwing when evaluated.
   */
  predicate LoadFailure(host: Host, st: State, e: Error) {
    match e
    case ResolutionError(s, c) =>
      FetchModule(host, s, c).moduleId == "" && !IsSentinel(s) && Declares(host, st, c, s)
    case CompileError(g, _) => EmitFailed(host, st, g, e) && st.define == Some(g)
    case EmitSkipped(g) => EmitFailed(host, st, g, e) && st.define == Some(g)
    case NotSingleOutput(g, _) => EmitFailed(host, st, g, e) && st.define == Some(g)
    case EvalError(g) =>
      && g in st.registry && HasOutput(st.registry[g]) && host.eval(st.registry[g].outputCode.value).Throws?
      && st.define == Some(g)
    case _ => false
  }

  /** Once `owner`'s stored code has called `define` with `deps`, every entry of `deps` is declared by the gathering owner. */
  lemma DefineDeclares(host: Host, st: State, owner: FileName, deps: seq<string>, factory: FactoryId, m: Record)
    requires owner in st.registry && HasOutput(st.registry[owner])
    requires host.eval(st.registry[owner].outputCode.value) == CallsDefine(deps, factory)
    requires m == st.registry[owner].(factory := Some(factory), gatheringDeps := true)
    ensures DeclaresAll(host, Put(st, owner, m), owner, deps)
  {
  }

  /** The first declared dependency, and the rest still declared in a later state that left the owner alone. */
  lemma DeclaresRest(host: Host, st: State, mid: State, owner: FileName, todo: seq<string>)
    requires |todo| > 0 && DeclaresAll(host, st, owner, todo)
    requires Untouched(st, mid, Gathering(st))
    ensures Declares(host, st, owner, todo[0])
    ensures DeclaresAll(host, mid, owner, todo[1..])
  {
    assert Declares(host, st, owner, todo[0]);
    assert owner in Gathering(st);
    forall i | 0 <= i < |todo[1..]|
      ensures Declares(host, mid, owner, todo[1..][i])
    {
      assert Declares(host, st, owner, todo[i + 1]);
    }
  }

  /** What evaluating `code` under a `define` bound to `fileName` does, by what the code does. */
  predicate EvaluateEffect(host: Host, st: State, fileName: FileName, code: string, o: Out<()>) {
    && fileName in st.registry
    && |st.calls| < |o.st.calls| && o.st.calls[|st.calls|] == EvalCall(fileName)
    && fileName in o.st.registry && o.st.registry[fileName].outputCode == st.registry[fileName].outputCode
    && (host.eval(code).Throws? ==>
          o.Fail? && o.err == EvalError(fileName) && o.st.define == st.define && o.st.registry == st.registry)
    && (host.eval(code).NoDefine? ==> o.Ok? && o.st.registry == st.registry && o.st.runQueue == st.runQueue)
    && (host.eval(code).CallsDefine? && o.Ok? ==>
          Defined(host, o.st, fileName, host.eval(code).deps, host.eval(code).factory))
    && (host.eval(code).CallsDefine? && o.Fail? ==> fileName in Gathering(o.st))
  }

  /**
    What the `define` callback does besides recording: the owner's compiled
    code stays, and every declared dependency it had to instantiate was
    evaluated, and queued when its code calls `define`.
   */
  predicate DefineEffect(host: Host, st: State, owner: FileName, deps: seq<string>, o: Out<()>) {
    && owner in st.registry && owner in o.st.registry
    && o.st.registry[owner].outputCode == st.registry[owner].outputCode
    && (o.Ok? ==>
          && o.st.registry[owner].deps.Some?
          && |o.st.registry[owner].deps.value| == |deps|
          && forall i :: 0 <= i < |deps| && MustInstantiate(Gathering(st) + {owner}, o.st, deps[i], o.st.registry[owner].deps.value[i]) ==>
               DepInstantiated(host, st, o.st, o.st.registry[owner].deps.value[i]))
  }

  /** What mapping the declared dependencies does to those it has to instantiate. */
  predicate GatherEffect(host: Host, st: State, owner: FileName, todo: seq<string>, o: Out<seq<string>>) {
    o.Ok? ==>
      && |o.value| == |todo|
      && forall i :: 0 <= i < |todo| && MustInstantiate(Gathering(st), o.st, todo[i], o.value[i]) ==>
           DepInstantiated(host, st, o.st, o.value[i])
  }

  /** A resolved dependency that is neither gathering nor run is instantiated. */
  predicate GatherOneEffect(host: Host, st: State, owner: FileName, declared: string, o: Out<string>) {
    && (o.Ok? && !IsSentinel(declared) ==> o.value in o.st.registry)
    && (o.Ok? && MustInstantiate(Gathering(st), o.st, declared, o.value) ==> Instantiated(host, st, o.value, o.st))
  }

  /** An evaluation logged after one log is logged after any prefix of it, in any extension. */
  lemma EvaluatedMono(a: seq<Call>, b: seq<Call>, c: seq<Call>, d: seq<Call>, fileName: FileName)
    requires a <= b && Evaluated(b, c, fileName) && c <= d
    ensures Evaluated(a, d, fileName)
  {
    var j :| 0 <= j < |c[|b|..]| && c[|b|..][j] == EvalCall(fileName);
    assert d[|a|..][|b| - |a| + j] == EvalCall(fileName);
  }

  lemma FrameRefl(host: Host, st: State, keep: set<FileName>)
    requires Valid(host, st)
    ensures Frame(host, st, st, keep)
  {
  }

  /** Two steps compose into one that keeps what both keep. */
  lemma FrameTrans(host: Host, s1: State, s2: State, s3: State, k1: set<FileName>, k2: set<FileName>, keep: set<FileName>)
    requires Frame(host, s1, s2, k1) && Frame(host, s2, s3, k2)
    requires keep <= k1 && keep <= k2
    ensures Frame(host, s1, s3, keep)
  {
    EvolvesTransitive(host, s1, s2, s3);
    forall i | |s1.runQueue| <= i < |s3.runQueue|
      ensures s3.runQueue[i] !in keep
    {
      if i < |s2.runQueue| {
        assert s3.runQueue[i] == s2.runQueue[i];
      }
    }
  }

  /** Resolution only adds records, so it is a step that keeps everything. */
  lemma OnlyRegistersFrame(host: Host, st: State, st': State, keep: set<FileName>)
    requires OnlyRegisters(host, st, st')
    ensures Frame(host, st, st', keep)
  {
  }

  /** Compiling `fileName` with `define` bound to it touches only that record. */
  lemma CompileStep(host: Host, st: State, fileName: FileName, c: State)
    requires Valid(host, st) && fileName in st.registry
    requires OnlyCompiles(host, st.(define := Some(fileName)), c, fileName)
    requires HasOutput(st.registry[fileName]) ==> c.registry[fileName] == st.registry[fileName]
    ensures Frame(host, st, c, Gathering(st) - {fileName})
    ensures Gathering(c) == Gathering(st)
    ensures Universe(host, c) == Universe(host, st)
  {
  }

  /** `instantiateModule` after compilation, in every outcome. */
  lemma InstantiateStep(host: Host, st: State, fileName: FileName, mid: State, o: Out<()>)
    requires Valid(host, st) && fileName in st.registry && !st.registry[fileName].hasRun
    requires Frame(host, st, mid, Gathering(st) - {fileName}) && Gathering(mid) == Gathering(st)
    requires Frame(host, mid, o.st, Gathering(mid) - {fileName})
    requires o.Ok? ==> Gathering(mid) - {fileName} <= Gathering(o.st) <= Gathering(mid) && o.st.define == None
    ensures InstantiatePost(host, st, fileName, o)
  {
    FrameTrans(host, st, mid, o.st, Gathering(st) - {fileName}, Gathering(mid) - {fileName}, Gathering(st) - {fileName});
  }

  /** What instantiation did, once the module is compiled and its code evaluated. */
  lemma InstantiateEffectStep(host: Host, st: State, fileName: FileName, c: Out<string>, e: Out<()>)
    requires fileName in st.registry && !st.registry[fileName].hasRun
    requires c.Ok? && fileName in c.st.registry && c.st.registry[fileName].outputCode == Some(c.value)
    requires HasOutput(c.st.registry[fileName])
    requires c.st.calls == if HasOutput(st.registry[fileName]) then st.calls else st.calls + [EmitCall(fileName)]
    requires c.st.calls <= e.st.calls
    requires EvaluateEffect(host, c.st, fileName, c.value, e)
    ensures InstantiateEffect(host, st, fileName, e)
  {
    if !HasOutput(st.registry[fileName]) {
      assert e.st.calls[|st.calls|] == c.st.calls[|st.calls|];
    }
    if e.Ok? {
      assert e.st.calls[|st.calls|..][|c.st.calls| - |st.calls|] == EvalCall(fileName);
    }
  }

  /** How instantiation ended, once the module compiled and its code was evaluated. */
  lemma InstantiateOutcomeStep(host: Host, st: State, fileName: FileName, c: Out<string>, e: Out<()>)
    requires fileName in st.registry && !st.registry[fileName].hasRun
    requires Compilable(host, st.registry[fileName])
    requires c.Ok? && c.value == CompiledCode(host, st.registry[fileName])
    requires st.calls <= c.st.calls && c.st.calls <= e.st.calls
    requires EvaluateEffect(host, c.st, fileName, c.value, e)
    ensures InstantiateOutcome(host, st, fileName, e)
  {
    assert e.st.calls[|st.calls|..][|c.st.calls| - |st.calls|] == EvalCall(fileName);
  }

  /** `define` up to the call that maps the dependencies. */
  lemma DefineStart(host: Host, st: State, owner: FileName, m: Record)
    requires Valid(host, st) && owner in st.registry
    requires m == st.registry[owner].(factory := m.factory, gatheringDeps := true)
    ensures Frame(host, st, Put(st, owner, m), Gathering(st) - {owner})
    ensures Gathering(Put(st, owner, m)) == Gathering(st) + {owner}
    ensures Universe(host, Put(st, owner, m)) == Universe(host, st)
    ensures Valid(host, Put(st, owner, m))
  {
    PutKeepsValid(host, st, owner, m);
    GatheringAfterPut(st, owner, m);
  }

  /** `define` when mapping a dependency threw. */
  lemma DefineFailed(host: Host, st: State, owner: FileName, deps: seq<string>, factory: FactoryId, m: Record, g: Out<seq<string>>)
    requires Valid(host, st) && owner in st.registry
    requires m == st.registry[owner].(factory := Some(factory), gatheringDeps := true)
    requires GatherPost(host, Put(st, owner, m), owner, deps, g) && g.Fail?
    ensures DefinePost(host, st, owner, deps, factory, Fail(g.err, g.st))
    ensures DefineEffect(host, st, owner, deps, Fail(g.err, g.st))
  {
    DefineGathered(host, st, owner, m, g.st);
    assert owner in Gathering(g.st);
  }

  /** Recording the mapped dependencies and queueing the module. */
  lemma DefineFinish(host: Host, st: State, owner: FileName, ds: seq<string>)
    requires Valid(host, st) && owner in st.registry && DepsIn(ds, st.registry)
    ensures var st' := Enqueue(Put(st, owner, st.registry[owner].(deps := Some(ds), gatheringDeps := false)), owner);
            && Frame(host, st, st', Gathering(st) - {owner})
            && Gathering(st') == Gathering(st) - {owner}
  {
    var m2 := st.registry[owner].(deps := Some(ds), gatheringDeps := false);
    PutKeepsValid(host, st, owner, m2);
    GatheringAfterPut(st, owner, m2);
    EnqueueKeepsValid(host, Put(st, owner, m2), owner);
  }

  /** `define` when every dependency was mapped. */
  lemma DefineDone(host: Host, st: State, owner: FileName, deps: seq<string>, factory: FactoryId, m: Record, g: Out<seq<string>>)
    requires Valid(host, st) && owner in st.registry
    requires m == st.registry[owner].(factory := Some(factory), gatheringDeps := true)
    requires GatherPost(host, Put(st, owner, m), owner, deps, g) && g.Ok?
    ensures owner in g.st.registry
    ensures var m2 := g.st.registry[owner].(deps := Some(g.value), gatheringDeps := false);
            DefinePost(host, st, owner, deps, factory, Ok((), Enqueue(Put(g.st, owner, m2), owner)))
  {
    DefineGathered(host, st, owner, m, g.st);
    var m2 := g.st.registry[owner].(deps := Some(g.value), gatheringDeps := false);
    var st3 := Enqueue(Put(g.st, owner, m2), owner);
    DefineFinish(host, g.st, owner, g.value);
    FrameTrans(host, st, g.st, st3, Gathering(st) - {owner}, Gathering(st) - {owner}, Gathering(st) - {owner});
    assert st3.registry[owner] == m2;
    assert DepsMatch(host, owner, deps, g.value);
  }

  /** The dependencies `define` instantiated, seen from before it started. */
  lemma DefineDoneEffect(host: Host, st: State, owner: FileName, deps: seq<string>, factory: FactoryId, m: Record, g: Out<seq<string>>)
    requires Valid(host, st) && owner in st.registry
    requires m == st.registry[owner].(factory := Some(factory), gatheringDeps := true)
    requires GatherPost(host, Put(st, owner, m), owner, deps, g) && g.Ok?
    requires GatherEffect(host, Put(st, owner, m), owner, deps, g)
    ensures owner in g.st.registry
    ensures var m2 := g.st.registry[owner].(deps := Some(g.value), gatheringDeps := false);
            DefineEffect(host, st, owner, deps, Ok((), Enqueue(Put(g.st, owner, m2), owner)))
  {
    DefineGathered(host, st, owner, m, g.st);
    GatheringAfterPut(st, owner, m);
    var st1 := Put(st, owner, m);
    var m2 := g.st.registry[owner].(deps := Some(g.value), gatheringDeps := false);
    var st3 := Enqueue(Put(g.st, owner, m2), owner);
    var ds := g.value;
    assert st3.registry[owner] == m2;
    forall i | 0 <= i < |deps| && MustInstantiate(Gathering(st) + {owner}, st3, deps[i], ds[i])
      ensures DepInstantiated(host, st, st3, ds[i])
    {
      var d := ds[i];
      assert d != owner && st3.registry[d] == g.st.registry[d];
      assert MustInstantiate(Gathering(st1), g.st, deps[i], d);
      assert DepInstantiated(host, st1, g.st, d);
    }
  }

  /** The state once the dependencies are mapped: only non-gathering records changed, the owner not among them. */
  lemma DefineGathered(host: Host, st: State, owner: FileName, m: Record, gst: State)
    requires Valid(host, st) && owner in st.registry
    requires m == st.registry[owner].(gatheringDeps := true, factory := m.factory)
    requires Frame(host, Put(st, owner, m), gst, Gathering(Put(st, owner, m)))
    ensures Frame(host, st, gst, Gathering(st) - {owner})
    ensures owner in gst.registry && gst.registry[owner] == m
    ensures owner !in st.runQueue ==> owner !in gst.runQueue
  {
    var st1 := Put(st, owner, m);
    DefineStart(host, st, owner, m);
    FrameTrans(host, st, st1, gst, Gathering(st) - {owner}, Gathering(st1), Gathering(st) - {owner});
    assert owner in Gathering(st1);
    if owner !in st.runQueue {
      assert st1.runQueue == st.runQueue;
    }
  }

  lemma GatherEmpty(host: Host, st: State, owner: FileName)
    requires Valid(host, st)
    ensures GatherPost(host, st, owner, [], Ok([], st))
  {
  }

  /**
    Mapping one more declared dependency in front: `mid` is the state once
    its slot `d` is settled, `rest` the outcome for the remaining ones.
   */
  lemma GatherCons(host: Host, st: State, owner: FileName, todo: seq<string>, mid: State, d: string, rest: Out<seq<string>>)
    requires |todo| > 0
    requires Frame(host, st, mid, Gathering(st)) && Gathering(mid) == Gathering(st)
    requires DepSlot(host, owner, todo[0], d) && (IsSentinel(d) || d in mid.registry)
    requires GatherPost(host, mid, owner, todo[1..], rest)
    ensures GatherPost(host, st, owner, todo, if rest.Fail? then rest else Ok([d] + rest.value, rest.st))
  {
    FrameTrans(host, st, mid, rest.st, Gathering(st), Gathering(mid), Gathering(st));
    if rest.Ok? {
      var ds := [d] + rest.value;
      forall i | 0 <= i < |todo|
        ensures DepSlot(host, owner, todo[i], ds[i])
      {
        if i > 0 {
          assert todo[i] == todo[1..][i - 1] && ds[i] == rest.value[i - 1];
        }
      }
      forall i | 0 <= i < |ds|
        ensures IsSentinel(ds[i]) || ds[i] in rest.st.registry
      {
        if i > 0 {
          assert ds[i] == rest.value[i - 1];
        }
      }
    }
  }

  /** Mapping one more declared dependency in front keeps track of every dependency instantiated. */
  lemma GatherConsEffect(host: Host, st: State, owner: FileName, todo: seq<string>, mid: State, d: string, rest: Out<seq<string>>)
    requires |todo| > 0
    requires Frame(host, st, mid, Gathering(st)) && Gathering(mid) == Gathering(st)
    requires GatherOneEffect(host, st, owner, todo[0], Ok(d, mid))
    requires Frame(host, mid, rest.st, Gathering(mid))
    requires GatherEffect(host, mid, owner, todo[1..], rest)
    ensures GatherEffect(host, st, owner, todo, if rest.Fail? then rest else Ok([d] + rest.value, rest.st))
  {
    if rest.Ok? {
      var ds := [d] + rest.value;
      forall i | 0 <= i < |todo| && MustInstantiate(Gathering(st), rest.st, todo[i], ds[i])
        ensures DepInstantiated(host, st, rest.st, ds[i])
      {
        if i == 0 {
          FirstDepInstantiated(host, st, owner, mid, rest.st, todo[0], d);
        } else {
          assert todo[i] == todo[1..][i - 1] && ds[i] == rest.value[i - 1];
          EvaluatedMono(st.calls, mid.calls, rest.st.calls, rest.st.calls, ds[i]);
        }
      }
    }
  }

  /** A dependency instantiated by one step stays instantiated through the steps after it. */
  lemma FirstDepInstantiated(host: Host, st: State, owner: FileName, mid: State, st': State, declared: string, d: FileName)
    requires st.calls <= mid.calls
    requires GatherOneEffect(host, st, owner, declared, Ok(d, mid))
    requires Evolves(host, mid, st') && OutputKept(mid, st')
    requires MustInstantiate(Gathering(st), st', declared, d)
    ensures DepInstantiated(host, st, st', d)
  {
    assert MustInstantiate(Gathering(st), mid, declared, d);
    EvaluatedMono(st.calls, st.calls, mid.calls, st'.calls, d);
    if DefinesFactory(host, st'.registry[d]) {
      assert DefinesFactory(host, mid.registry[d]);
      var k :| 0 <= k < |mid.runQueue| && mid.runQueue[k] == d;
      assert st'.runQueue[k] == d;
    }
  }

  /** What settling one declared dependency promises. */
  predicate GatherOnePost(host: Host, st: State, owner: FileName, declared: string, o: Out<string>) {
    && Frame(host, st, o.st, Gathering(st))
    && (o.Ok? ==> Gathering(o.st) == Gathering(st) && Universe(host, o.st) == Universe(host, st))
    && (o.Ok? ==> DepSlot(host, owner, declared, o.value) && (IsSentinel(o.value) || o.value in o.st.registry))
  }

  /**
    Resolving a non-sentinel dependency and instantiating it unless it is
    gathering: a step that keeps every gathering record.
   */
  lemma ResolveThenInstantiate(host: Host, st: State, owner: FileName, s: Specifier, r: Out<FileName>, i: Out<()>)
    requires Valid(host, st) && !IsSentinel(s)
    requires ResolvesTo(host, st, s, owner, r) && r.Ok?
    requires r.st.registry[r.value].gatheringDeps ==> i == Ok((), r.st)
    requires !r.st.registry[r.value].gatheringDeps ==> InstantiatePost(host, r.st, r.value, i)
    ensures GatherOnePost(host, st, owner, s, if i.Fail? then Fail(i.err, i.st) else Ok(r.value, i.st))
  {
    OnlyRegistersFrame(host, st, r.st, Gathering(st));
    if r.st.registry[r.value].gatheringDeps {
    } else {
      FrameTrans(host, st, r.st, i.st, Gathering(st), Gathering(r.st) - {r.value}, Gathering(st));
      EvolvesKeepsUniverse(host, st, i.st);
    }
  }

  /** The dependency settled by resolving and instantiating it was instantiated, unless it was gathering or had run. */
  lemma ResolveThenInstantiateEffect(host: Host, st: State, owner: FileName, s: Specifier, r: Out<FileName>, i: Out<()>)
    requires Valid(host, st) && !IsSentinel(s)
    requires ResolvesTo(host, st, s, owner, r) && r.Ok?
    requires r.st.registry[r.value].gatheringDeps ==> i == Ok((), r.st)
    requires !r.st.registry[r.value].gatheringDeps ==>
               InstantiatePost(host, r.st, r.value, i) && InstantiateEffect(host, r.st, r.value, i)
    ensures GatherOneEffect(host, st, owner, s, if i.Fail? then Fail(i.err, i.st) else Ok(r.value, i.st))
  {
    if i.Ok? && !r.st.registry[r.value].gatheringDeps && MustInstantiate(Gathering(st), i.st, s, r.value) {
      assert !r.st.registry[r.value].hasRun;
      EvaluatedMono(st.calls, r.st.calls, i.st.calls, i.st.calls, r.value);
    }
  }

  /**
    `instantiateModule`: unless the module has already run, install its
    `define`, evaluate its compiled code, and remove the binding again.
    The measure is the set of modules that could still start gathering:
    every recursive descent goes through a `define` that marks one more
    module as gathering, which bounds the depth by the number of modules.
   */
  function Instantiate(host: Host, st: State, fileName: FileName): (o: Out<()>)
    requires Valid(host, st) && fileName in st.registry
    ensures InstantiatePost(host, st, fileName, o)
    ensures InstantiateEffect(host, st, fileName, o)
    ensures InstantiateOutcome(host, st, fileName, o)
    ensures o.Fail? ==> LoadFailure(host, o.st, o.err)
    decreases Universe(host, st) - Gathering(st), if fileName in Gathering(st) then 7 else 2, 0
  {
    if st.registry[fileName].hasRun then
      FrameRefl(host, st, Gathering(st) - {fileName});
      Ok((), st)
    else
      var c := CompileModule(host, st.(define := Some(fileName)), fileName);
      CompileStep(host, st, fileName, c.st);
      if c.Fail? then
        FrameRefl(host, c.st, Gathering(c.st) - {fileName});
        InstantiateStep(host, st, fileName, c.st, Fail(c.err, c.st));
        Fail(c.err, c.st)
      else
        var e := Evaluate(host, c.st, fileName, c.value);
        InstantiateStep(host, st, fileName, c.st, e);
        InstantiateEffectStep(host, st, fileName, c, e);
        InstantiateOutcomeStep(host, st, fileName, c, e);
        e
  }

  /** What evaluating compiled code under a `define` bound to `fileName` promises. */
  predicate EvaluatePost(host: Host, st: State, fileName: FileName, o: Out<()>) {
    && Frame(host, st, o.st, Gathering(st) - {fileName})
    && (o.Ok? ==> Gathering(st) - {fileName} <= Gathering(o.st) <= Gathering(st) && o.st.define == None)
  }

  /**
    The rest of `instantiateModule` once the module is compiled: evaluate
    the code, which may call `define`, then remove the binding. An
    evaluation that throws propagates with the binding still installed.
   */
  function Evaluate(host: Host, st: State, fileName: FileName, code: string): (o: Out<()>)
    requires Valid(host, st) && fileName in st.registry
    requires HasOutput(st.registry[fileName]) && st.registry[fileName].outputCode == Some(code)
    requires st.define == Some(fileName)
    ensures EvaluatePost(host, st, fileName, o)
    ensures EvaluateEffect(host, st, fileName, code, o)
    ensures o.Fail? ==> LoadFailure(host, o.st, o.err)
    decreases Universe(host, st) - Gathering(st), if fileName in Gathering(st) then 6 else 1, 0
  {
    var st1 := st.(calls := st.calls + [EvalCall(fileName)]);
    LogEval(host, st, fileName);
    match host.eval(code)
    case NoDefine =>
      EvaluateStep(host, st, fileName, st1, Ok((), st1.(define := None)));
      Ok((), st1.(define := None))
    case Throws =>
      EvaluateStep(host, st, fileName, st1, Fail(EvalError(fileName), st1));
      Fail(EvalError(fileName), st1)
    case CallsDefine(deps, factory) =>
      var d := Define(host, st1, fileName, deps, factory);
      EvaluateDefined(host, st, fileName, deps, factory, d);
      EvaluateDefinedEffect(host, st, fileName, code, d);
      if d.Fail? then d else Ok((), d.st.(define := None))
  }

  /** Evaluation that called `define`, in both of its outcomes. */
  lemma EvaluateDefined(host: Host, st: State, fileName: FileName, deps: seq<string>, factory: FactoryId, d: Out<()>)
    requires Valid(host, st) && fileName in st.registry
    requires DefinePost(host, st.(calls := st.calls + [EvalCall(fileName)]), fileName, deps, factory, d)
    ensures d.Fail? ==> EvaluatePost(host, st, fileName, d)
    ensures d.Ok? ==> EvaluatePost(host, st, fileName, Ok((), d.st.(define := None)))
  {
    var st1 := st.(calls := st.calls + [EvalCall(fileName)]);
    LogEval(host, st, fileName);
    if d.Fail? {
      EvaluateStep(host, st, fileName, st1, d);
    } else {
      EvaluateStep(host, st, fileName, st1, Ok((), d.st.(define := None)));
    }
  }

  /** What evaluation that called `define` did, in both of its outcomes. */
  lemma EvaluateDefinedEffect(host: Host, st: State, fileName: FileName, code: string, d: Out<()>)
    requires Valid(host, st) && fileName in st.registry && host.eval(code).CallsDefine?
    requires var st1 := st.(calls := st.calls + [EvalCall(fileName)]);
             && DefinePost(host, st1, fileName, host.eval(code).deps, host.eval(code).factory, d)
             && DefineEffect(host, st1, fileName, host.eval(code).deps, d)
    ensures d.Fail? ==> EvaluateEffect(host, st, fileName, code, d)
    ensures d.Ok? ==> EvaluateEffect(host, st, fileName, code, Ok((), d.st.(define := None)))
  {
    var st1 := st.(calls := st.calls + [EvalCall(fileName)]);
    assert d.st.calls[|st.calls|] == st1.calls[|st.calls|];
  }

  /** Logging the evaluation changes nothing the invariant or the measure sees. */
  lemma LogEval(host: Host, st: State, fileName: FileName)
    requires Valid(host, st)
    ensures var st1 := st.(calls := st.calls + [EvalCall(fileName)]);
            && Valid(host, st1)
            && Gathering(st1) == Gathering(st)
            && Universe(host, st1) == Universe(host, st)
  {
  }

  /** Evaluation in every outcome, from the state with the evaluation logged. */
  lemma EvaluateStep(host: Host, st: State, fileName: FileName, st1: State, o: Out<()>)
    requires Valid(host, st) && fileName in st.registry
    requires st1 == st.(calls := st.calls + [EvalCall(fileName)])
    requires Frame(host, st1, o.st, Gathering(st1) - {fileName})
    requires o.Ok? ==> Gathering(st1) - {fileName} <= Gathering(o.st) <= Gathering(st1) && o.st.define == None
    ensures EvaluatePost(host, st, fileName, o)
  {
    assert Gathering(st1) == Gathering(st);
    assert Frame(host, st, st1, Gathering(st) - {fileName});
    FrameTrans(host, st, st1, o.st, Gathering(st) - {fileName}, Gathering(st1) - {fileName}, Gathering(st) - {fileName});
  }

  /**
    The `define` callback bound to `owner`: store the factory, mark the
    module as gathering, map the declared dependencies, clear the mark and
    queue the module unless it is queued already.
   */
  function Define(host: Host, st: State, owner: FileName, deps: seq<string>, factory: FactoryId): (o: Out<()>)
    requires Valid(host, st) && owner in st.registry
    requires HasOutput(st.registry[owner]) && host.eval(st.registry[owner].outputCode.value) == CallsDefine(deps, factory)
    ensures DefinePost(host, st, owner, deps, factory, o)
    ensures DefineEffect(host, st, owner, deps, o)
    ensures o.Fail? ==> LoadFailure(host, o.st, o.err)
    decreases Universe(host, st) - Gathering(st), if owner in Gathering(st) then 5 else 0, 0
  {
    var m := st.registry[owner].(factory := Some(factory), gatheringDeps := true);
    DefineStart(host, st, owner, m);
    DefineDeclares(host, st, owner, deps, factory, m);
    var g := Gather(host, Put(st, owner, m), owner, deps);
    if g.Fail? then
      DefineFailed(host, st, owner, deps, factory, m, g);
      Fail(g.err, g.st)
    else
      DefineDone(host, st, owner, deps, factory, m, g);
      DefineDoneEffect(host, st, owner, deps, factory, m, g);
      var m2 := g.st.registry[owner].(deps := Some(g.value), gatheringDeps := false);
      Ok((), Enqueue(Put(g.st, owner, m2), owner))
  }

  /**
    The `deps.map` inside `define`, one declared dependency at a time,
    stopping at the first that throws.
   */
  function Gather(host: Host, st: State, owner: FileName, todo: seq<string>): (o: Out<seq<string>>)
    requires Valid(host, st) && owner in st.registry && DeclaresAll(host, st, owner, todo)
    ensures GatherPost(host, st, owner, todo, o)
    ensures GatherEffect(host, st, owner, todo, o)
    ensures o.Fail? ==> LoadFailure(host, o.st, o.err)
    decreases Universe(host, st) - Gathering(st), 4, |todo|
  {
    if |todo| == 0 then
      GatherEmpty(host, st, owner);
      Ok([], st)
    else
      assert Declares(host, st, owner, todo[0]);
      var one := GatherOne(host, st, owner, todo[0]);
      if one.Fail? then
        Fail(one.err, one.st)
      else
        DeclaresRest(host, st, one.st, owner, todo);
        var rest := Gather(host, one.st, owner, todo[1..]);
        GatherCons(host, st, owner, todo, one.st, one.value, rest);
        GatherConsEffect(host, st, owner, todo, one.st, one.value, rest);
        if rest.Fail? then rest else Ok([one.value] + rest.value, rest.st)
  }

  /**
    One step of the `deps.map` inside `define`: "require" and "exports"
    are kept; any other specifier is resolved from `owner`, instantiated
    unless it is gathering its own dependencies, and replaced by its
    fileName.
   */
  function GatherOne(host: Host, st: State, owner: FileName, declared: string): (o: Out<string>)
    requires Valid(host, st) && Declares(host, st, owner, declared)
    ensures GatherOnePost(host, st, owner, declared, o)
    ensures GatherOneEffect(host, st, owner, declared, o)
    ensures o.Fail? ==> LoadFailure(host, o.st, o.err)
    decreases Universe(host, st) - Gathering(st), 3, 0
  {
    if IsSentinel(declared) then
      FrameRefl(host, st, Gathering(st));
      Ok(declared, st)
    else
      var r := Resolve(host, st, declared, owner);
      if r.Fail? then
        OnlyRegistersFrame(host, st, r.st, Gathering(st));
        assert Declares(host, r.st, owner, declared);
        Fail(r.err, r.st)
      else
        EvolvesKeepsUniverse(host, st, r.st);
        var i := if r.st.registry[r.value].gatheringDeps then Ok((), r.st) else Instantiate(host, r.st, r.value);
        ResolveThenInstantiate(host, st, owner, declared, r, i);
        ResolveThenInstantiateEffect(host, st, owner, declared, r, i);
        if i.Fail? then Fail(i.err, i.st) else Ok(r.value, i.st)
  }

  /** Every entry of a declared dependency list is "require" or "exports". */
  predicate OnlySentinels(deps: seq<string>) {
    forall i :: 0 <= i < |deps| ==> IsSentinel(deps[i])
  }

  /** Mapping a dependency list of sentinels only keeps the list and changes nothing. */
  lemma {:induction false} GatherSentinels(host: Host, st: State, owner: FileName, todo: seq<string>)
    requires Valid(host, st) && owner in st.registry && DeclaresAll(host, st, owner, todo) && OnlySentinels(todo)
    ensures Gather(host, st, owner, todo) == Ok(todo, st)
    decreases |todo|
  {
    if |todo| > 0 {
      assert IsSentinel(todo[0]);
      assert OnlySentinels(todo[1..]) by {
        forall i | 0 <= i < |todo[1..]|
          ensures IsSentinel(todo[1..][i])
        {
          assert todo[1..][i] == todo[i + 1];
        }
      }
      GatherSentinels(host, st, owner, todo[1..]);
      assert [todo[0]] + todo[1..] == todo;
    }
  }

  /**
    A `define` whose dependencies are all sentinels records the factory
    and the list as declared and queues the module, with nothing else
    changed.
   */
  lemma DefineSentinels(host: Host, st: State, owner: FileName, deps: seq<string>, factory: FactoryId)
    requires Valid(host, st) && owner in st.registry && OnlySentinels(deps)
    requires HasOutput(st.registry[owner]) && host.eval(st.registry[owner].outputCode.value) == CallsDefine(deps, factory)
    ensures var m := st.registry[owner].(factory := Some(factory), deps := Some(deps), gatheringDeps := false);
            Define(host, st, owner, deps, factory) == Ok((), Enqueue(Put(st, owner, m), owner))
  {
    var m1 := st.registry[owner].(factory := Some(factory), gatheringDeps := true);
    DefineStart(host, st, owner, m1);
    DefineDeclares(host, st, owner, deps, factory, m1);
    GatherSentinels(host, Put(st, owner, m1), owner, deps);
    var m2 := m1.(deps := Some(deps), gatheringDeps := false);
    assert Put(Put(st, owner, m1), owner, m2) == Put(st, owner, m2);
  }

  /**
    Instantiating a module that has not run and compiles to code that does
    not call `define`: it succeeds and queues nothing.
   */
  lemma InstantiateNoDefine(host: Host, st: State, f: FileName)
    requires Valid(host, st) && f in st.registry && !st.registry[f].hasRun
    requires Compilable(host, st.registry[f]) && host.eval(CompiledCode(host, st.registry[f])).NoDefine?
    ensures var o := Instantiate(host, st, f);
            o.Ok? && o.st.runQueue == st.runQueue
  {
    var c := CompileModule(host, st.(define := Some(f)), f);
    assert Instantiate(host, st, f) == Evaluate(host, c.st, f, c.value);
  }

  /**
    Instantiating a module that has not run, compiles, and whose compiled
    code calls `define` with only "require" and "exports": it succeeds,
    and leaves the module ready to run with that factory, queued after
    whatever was queued, and every other record as it was.
   */
  lemma InstantiateLeaf(host: Host, st: State, f: FileName, deps: seq<string>, factory: FactoryId)
    requires Valid(host, st) && f in st.registry && !st.registry[f].hasRun
    requires Compilable(host, st.registry[f])
    requires host.eval(CompiledCode(host, st.registry[f])) == CallsDefine(deps, factory) && OnlySentinels(deps)
    ensures var o := Instantiate(host, st, f);
            && o.Ok? && Valid(host, o.st)
            && o.st.registry.Keys == st.registry.Keys
            && Ready(o.st.registry[f]) && o.st.registry[f].factory == Some(factory)
            && (f !in st.runQueue ==> o.st.runQueue == st.runQueue + [f])
            && (forall g :: g in st.registry && g != f ==> o.st.registry[g] == st.registry[g])
  {
    var c := CompileModule(host, st.(define := Some(f)), f);
    assert c.Ok? && c.value == CompiledCode(host, st.registry[f]);
    assert Instantiate(host, st, f) == Evaluate(host, c.st, f, c.value);
    EvaluateSentinels(host, c.st, f, c.value, deps, factory);
    LeafDefined(host, st, c.st, f, deps, factory);
  }

  /** The state a leaf's `define` leaves, seen from before its compilation. */
  lemma LeafDefined(host: Host, st: State, cst: State, f: FileName, deps: seq<string>, factory: FactoryId)
    requires f in st.registry && !st.registry[f].hasRun
    requires OnlyCompiles(host, st.(define := Some(f)), cst, f)
    ensures var st2 := cst.(calls := cst.calls + [EvalCall(f)]);
            var m := cst.registry[f].(factory := Some(factory), deps := Some(deps), gatheringDeps := false);
            var s := Enqueue(Put(st2, f, m), f).(define := None);
            && s.registry.Keys == st.registry.Keys
            && Ready(s.registry[f]) && s.registry[f].factory == Some(factory)
            && (f !in st.runQueue ==> s.runQueue == st.runQueue + [f])
            && (forall g :: g in st.registry && g != f ==> s.registry[g] == st.registry[g])
  {
  }

  /** Evaluating code that calls `define` with only sentinels records the factory and queues the module, and nothing else. */
  lemma EvaluateSentinels(host: Host, st: State, f: FileName, code: string, deps: seq<string>, factory: FactoryId)
    requires Valid(host, st) && f in st.registry && st.define == Some(f)
    requires HasOutput(st.registry[f]) && st.registry[f].outputCode == Some(code)
    requires host.eval(code) == CallsDefine(deps, factory) && OnlySentinels(deps)
    ensures var st2 := st.(calls := st.calls + [EvalCall(f)]);
            var m := st.registry[f].(factory := Some(factory), deps := Some(deps), gatheringDeps := false);
            Evaluate(host, st, f, code) == Ok((), Enqueue(Put(st2, f, m), f).(define := None))
  {
    var st2 := st.(calls := st.calls + [EvalCall(f)]);
    LogEval(host, st, f);
    DefineSentinels(host, st2, f, deps, factory);
  }

  /**
    A fetched source that compiles cleanly, to code that calls `define`
    with `deps`, only "require" and "exports", and `factory`.
   */
  predicate LeafSource(host: Host, fetched: Fetched, deps: seq<string>, factory: FactoryId) {
    var out := host.emit(fetched.fileName, fetched.sourceCode);
    && |AllDiagnostics(out)| == 0 && !out.emitSkipped && |out.outputFiles| == 1
    && host.eval(out.outputFiles[0] + SourceUrlTrailer(fetched.fileName)) == CallsDefine(deps, factory)
    && OnlySentinels(deps)
  }

  /**
    Settling a declared dependency seen for the first time, whose fetched
    source is a leaf: it is registered, instantiated and queued, and the
    defining module's record is left as it was.
   */
  lemma GatherOneLeaf(host: Host, st: State, owner: FileName, declared: Specifier, deps: seq<string>, factory: FactoryId)
    requires Valid(host, st) && Declares(host, st, owner, declared) && !IsSentinel(declared)
    requires var fetched := FetchModule(host, declared, owner);
             fetched.moduleId != "" && fetched.fileName !in st.registry && LeafSource(host, fetched, deps, factory)
    ensures var d := FetchModule(host, declared, owner).fileName;
            var o := GatherOne(host, st, owner, declared);
            && o == Ok(d, o.st) && Valid(host, o.st)
            && o.st.registry.Keys == st.registry.Keys + {d}
            && Ready(o.st.registry[d]) && o.st.registry[d].factory == Some(factory)
            && o.st.runQueue == st.runQueue + [d]
            && o.st.registry[owner] == st.registry[owner]
  {
    var fetched := FetchModule(host, declared, owner);
    var d := fetched.fileName;
    var r := Resolve(host, st, declared, owner);
    assert FreshFrom(r.st.registry[d], fetched);
    assert d !in st.runQueue;
    InstantiateLeaf(host, r.st, d, deps, factory);
  }

  /** Mapping a single declared dependency is settling it. */
  lemma GatherSingle(host: Host, st: State, owner: FileName, declared: Specifier)
    requires Valid(host, st) && Declares(host, st, owner, declared)
    requires GatherOne(host, st, owner, declared).Ok?
    ensures var one := GatherOne(host, st, owner, declared);
            Gather(host, st, owner, [declared]) == Ok([one.value], one.st)
  {
    var one := GatherOne(host, st, owner, declared);
    DeclaresRest(host, st, one.st, owner, [declared]);
    assert [declared][0] == declared && [declared][1..] == [];
    assert Gather(host, one.st, owner, []) == Ok([], one.st);
    assert [one.value] + [] == [one.value];
  }

  /**
    A `define` whose only declared dependency is seen for the first time
    and is a leaf: it succeeds, and queues the dependency and then the
    module, both ready to run.
   */
  lemma DefineOneDependency(host: Host, st: State, owner: FileName, declared: Specifier, factory: FactoryId, depDeps: seq<string>, depFactory: FactoryId)
    requires Valid(host, st) && owner in st.registry && owner !in st.runQueue && !IsSentinel(declared)
    requires HasOutput(st.registry[owner]) && host.eval(st.registry[owner].outputCode.value) == CallsDefine([declared], factory)
    requires !st.registry[owner].hasRun
    requires var fetched := FetchModule(host, declared, owner);
             fetched.moduleId != "" && fetched.fileName !in st.registry && LeafSource(host, fetched, depDeps, depFactory)
    ensures var d := FetchModule(host, declared, owner).fileName;
            var o := Define(host, st, owner, [declared], factory);
            && o.Ok? && Valid(host, o.st)
            && o.st.runQueue == st.runQueue + [d, owner]
            && d in o.st.registry && Ready(o.st.registry[d]) && o.st.registry[d].factory == Some(depFactory)
            && owner in o.st.registry && Ready(o.st.registry[owner]) && o.st.registry[owner].factory == Some(factory)
  {
    var d := FetchModule(host, declared, owner).fileName;
    var m := st.registry[owner].(factory := Some(factory), gatheringDeps := true);
    var p := Put(st, owner, m);
    DefineStart(host, st, owner, m);
    DefineDeclares(host, st, owner, [declared], factory, m);
    GatherOneLeaf(host, p, owner, declared, depDeps, depFactory);
    GatherSingle(host, p, owner, declared);
    var one := GatherOne(host, p, owner, declared);
    var m2 := one.st.registry[owner].(deps := Some([d]), gatheringDeps := false);
    assert Define(host, st, owner, [declared], factory) == Ok((), Enqueue(Put(one.st, owner, m2), owner));
    QueuedAfterDependency(st, one.st, owner, d, factory, depFactory);
  }

  /**
    Instantiating a module that has not run and is not queued, whose code
    compiles and calls `define` with a single dependency seen for the first
    time that is a leaf: it succeeds and queues the dependency, then the
    module, both ready to run.
   */
  lemma InstantiateOneDependency(host: Host, st: State, f: FileName, declared: Specifier, factory: FactoryId, depDeps: seq<string>, depFactory: FactoryId)
    requires Valid(host, st) && f in st.registry && !st.registry[f].hasRun && f !in st.runQueue && !IsSentinel(declared)
    requires Compilable(host, st.registry[f])
    requires host.eval(CompiledCode(host, st.registry[f])) == CallsDefine([declared], factory)
    requires var fetched := FetchModule(host, declared, f);
             fetched.moduleId != "" && fetched.fileName !in st.registry && LeafSource(host, fetched, depDeps, depFactory)
    ensures var d := FetchModule(host, declared, f).fileName;
            var o := Instantiate(host, st, f);
            && o.Ok? && Valid(host, o.st)
            && o.st.runQueue == st.runQueue + [d, f]
            && d in o.st.registry && Ready(o.st.registry[d]) && o.st.registry[d].factory == Some(depFactory)
            && f in o.st.registry && Ready(o.st.registry[f]) && o.st.registry[f].factory == Some(factory)
  {
    var c := CompileModule(host, st.(define := Some(f)), f);
    assert c.Ok? && c.value == CompiledCode(host, st.registry[f]);
    assert Instantiate(host, st, f) == Evaluate(host, c.st, f, c.value);
    var st2 := c.st.(calls := c.st.calls + [EvalCall(f)]);
    LogEval(host, c.st, f);
    DefineOneDependency(host, st2, f, declared, factory, depDeps, depFactory);
    var d := Define(host, st2, f, [declared], factory);
    assert Evaluate(host, c.st, f, c.value) == Ok((), d.st.(define := None));
  }

  /** Queueing a module after the one dependency its `define` queued. */
  lemma QueuedAfterDependency(st: State, one: State, owner: FileName, d: FileName, factory: FactoryId, depFactory: FactoryId)
    requires owner in st.registry && owner !in st.runQueue && !st.registry[owner].hasRun && d !in st.registry
    requires owner in one.registry && one.registry[owner] == st.registry[owner].(factory := Some(factory), gatheringDeps := true)
    requires one.runQueue == st.runQueue + [d]
    requires d in one.registry && Ready(one.registry[d]) && one.registry[d].factory == Some(depFactory)
    ensures var s := Enqueue(Put(one, owner, one.registry[owner].(deps := Some([d]), gatheringDeps := false)), owner);
            && s.runQueue == st.runQueue + [d, owner]
            && d in s.registry && Ready(s.registry[d]) && s.registry[d].factory == Some(depFactory)
            && owner in s.registry && Ready(s.registry[owner]) && s.registry[owner].factory == Some(factory)
  {
    assert owner != d && owner !in one.runQueue;
  }

  /**
    The cycle guard: a dependency that resolves to a module still gathering
    its own dependencies (a back edge to a module on the current path) is
    recorded by its fileName and not instantiated again; nothing beyond the
    resolution happens.
   */
  lemma BackEdgeIsOnlyRecorded(host: Host, st: State, owner: FileName, specifier: Specifier)
    requires Valid(host, st) && Declares(host, st, owner, specifier) && !IsSentinel(specifier)
    requires var r := Resolve(host, st, specifier, owner);
             r.Ok? && r.st.registry[r.value].gatheringDeps
    ensures var r := Resolve(host, st, specifier, owner);
            GatherOne(host, st, owner, specifier) == Ok(r.value, r.st)
  {
  }

  /**
    Queue order: when `define` queues a module that was not queued, every
    dependency it had to instantiate (not a sentinel, not gathering, not
    run) and whose code calls `define` is already in the queue ahead of
    it, so the first-in first-out drain runs the dependency's factory
    first. Back edges of a cycle (dependencies still gathering) are exempt.
   */
  lemma DependenciesQueuedFirst(host: Host, st: State, owner: FileName, deps: seq<string>, factory: FactoryId)
    requires Valid(host, st) && owner in st.registry && owner !in st.runQueue
    requires HasOutput(st.registry[owner]) && host.eval(st.registry[owner].outputCode.value) == CallsDefine(deps, factory)
    requires Define(host, st, owner, deps, factory).Ok?
    ensures var o := Define(host, st, owner, deps, factory);
            var q := o.st.runQueue;
            var ds := o.st.registry[owner].deps.value;
            && |q| > 0 && q[|q| - 1] == owner
            && |ds| == |deps|
            && forall i ::
                 0 <= i < |deps| && MustInstantiate(Gathering(st) + {owner}, o.st, deps[i], ds[i]) && DefinesFactory(host, o.st.registry[ds[i]])
                 ==> ds[i] in q[..|q| - 1]
  {
    var o := Define(host, st, owner, deps, factory);
    var q := o.st.runQueue;
    var ds := o.st.registry[owner].deps.value;
    assert DefineEffect(host, st, owner, deps, o);
    forall i | 0 <= i < |deps| && MustInstantiate(Gathering(st) + {owner}, o.st, deps[i], ds[i])
                 && DefinesFactory(host, o.st.registry[ds[i]])
      ensures ds[i] in q[..|q| - 1]
    {
      assert DepInstantiated(host, st, o.st, ds[i]);
      QueuedAhead(q, ds[i]);
    }
  }

  /** An entry of a queue other than its last is in the queue ahead of the last. */
  lemma QueuedAhead(q: seq<FileName>, d: FileName)
    requires d in q && d != q[|q| - 1]
    ensures d in q[..|q| - 1]
  {
    var k :| 0 <= k < |q| && q[k] == d;
    assert q[..|q| - 1][k] == d;
  }
}

=== FILE: facade.dfy ===
/**
  The entry points of the loader: `run` (resolve a module, instantiate it
  unless its dependencies are already recorded, and drain the run queue),
  `transform` (resolve and compile without running), and the local
  `require` handed to factories for dynamic imports.
 */
module Facade {
  import opened Base
  import opened ModuleRecord
  import opened Collaborators
  import opened LoaderState
  import opened Resolver
  import opened Compilation
  import opened Executor
  import opened RunQueue

  /** What `run` promises. */
  predicate RunPost(host: Host, st: State, specifier: Specifier, containingFile: string, o: Out<FileName>) {
    var fetched := FetchModule(host, specifier, containingFile);
    && Valid(host, o.st)
    && st.registry.Keys <= o.st.registry.Keys
    && (fetched.moduleId == "" ==> o.Fail? && o.err == ResolutionError(specifier, containingFile))
    && (o.Ok? ==> o.value == fetched.fileName && o.value in o.st.registry)
    && (o.Ok? ==> o.st.scriptFileNames == [o.value])
    && (o.Ok? ==> o.st.runQueue == [])
    && (o.Ok? ==> forall g :: g in st.runQueue ==> g in o.st.registry && o.st.registry[g].hasRun)
  }

  /** A module `run` has to instantiate: not registered yet, or registered without a dependency list and not run. */
  predicate FirstRun(st: State, fileName: FileName) {
    fileName !in st.registry || (st.registry[fileName].deps.None? && !st.registry[fileName].hasRun)
  }

  /** Does the log `after`, past the log `before`, hold a call of `fileName`'s factory? */
  predicate FactoryRan(before: seq<Call>, after: seq<Call>, fileName: FileName) {
    exists k :: |before| <= k < |after| && after[k].FactoryCall? && after[k].fileName == fileName
  }

  /**
    What a completed `run` did to a module it had to instantiate: the
    module has compiled code, that code was evaluated, and when it calls
    `define` the module's factory was called and the module is marked as
    run.
   */
  predicate RunEffect(host: Host, st: State, o: Out<FileName>) {
    o.Ok? && FirstRun(st, o.value) ==>
      && o.value in o.st.registry
      && HasOutput(o.st.registry[o.value])
      && Evaluated(st.calls, o.st.calls, o.value)
      && (DefinesFactory(host, o.st.registry[o.value]) ==>
            o.st.registry[o.value].hasRun && FactoryRan(st.calls, o.st.calls, o.value))
  }

  /** The errors the drain raises, each naming the record it rejected. */
  predicate DrainError(e: Error) {
    e.NoFactory? || e.AlreadyRun? || e.DepsUnresolved? || e.FactoryThrew?
  }

  /**
    Why a `run` failed, seen in the state it ends in: the module itself
    does not resolve, a load error the collaborators produced while
    instantiating (an unresolvable declared dependency, a failed emit,
    code that throws), or a queued record the drain rejected (a failed
    check, or a factory that threw on the views it was last called with).
   */
  predicate RunFailure(host: Host, specifier: Specifier, containingFile: string, o: Out<FileName>) {
    o.Fail? ==>
      || (o.err == ResolutionError(specifier, containingFile) && FetchModule(host, specifier, containingFile).moduleId == "")
      || LoadFailure(host, o.st, o.err)
      || (DrainError(o.err) && o.err.fileName in o.st.registry && RejectedBy(host, o.st, o.err.fileName, o.err))
  }

  /**
    `run`: resolve the module, make it the only root of the compile scope,
    instantiate it when its dependency list is not recorded yet, then run
    every queued factory.
   */
  function Run(host: Host, st: State, specifier: Specifier, containingFile: string): (o: Out<FileName>)
    requires Valid(host, st)
    ensures RunPost(host, st, specifier, containingFile, o)
    ensures RunEffect(host, st, o)
    ensures RunFailure(host, specifier, containingFile, o)
  {
    var r := Resolve(host, st, specifier, containingFile);
    if r.Fail? then
      Fail(r.err, r.st)
    else
      var f := r.value;
      var st1 := r.st.(scriptFileNames := [f]);
      assert Valid(host, st1);
      var i := if st1.registry[f].deps.None? then Instantiate(host, st1, f) else Ok((), st1);
      if i.Fail? then
        Fail(i.err, i.st)
      else
        var d := Drain(host, i.st);
        RunFinish(host, st, specifier, containingFile, r, i.st, d);
        RunFirstEffect(host, st, specifier, containingFile, r, i, d);
        RunStopped(host, specifier, containingFile, i.st, d);
        if d.Fail? then Fail(d.err, d.st) else Ok(f, d.st)
  }

  /** A drain that throws makes `run` fail with the error of the record it rejected. */
  lemma RunStopped(host: Host, specifier: Specifier, containingFile: string, st: State, d: Out<()>)
    requires d.Fail? ==> |d.st.runQueue| < |st.runQueue|
    requires DrainFailure(host, st, d)
    ensures d.Fail? ==> RunFailure(host, specifier, containingFile, Fail(d.err, d.st))
  {
  }

  /** `run` once the module is resolved and, if need be, instantiated. */
  lemma RunFinish(host: Host, st: State, specifier: Specifier, containingFile: string, r: Out<FileName>, st2: State, d: Out<()>)
    requires Valid(host, st)
    requires ResolvesTo(host, st, specifier, containingFile, r) && r.Ok?
    requires Evolves(host, r.st.(scriptFileNames := [r.value]), st2) && DrainPost(host, st2, d)
    ensures d.Fail? ==> RunPost(host, st, specifier, containingFile, Fail(d.err, d.st))
    ensures d.Ok? ==> RunPost(host, st, specifier, containingFile, Ok(r.value, d.st))
  {
    assert st.runQueue == r.st.runQueue;
    QueueKept(st.runQueue, st2.runQueue);
  }

  /** A module `run` had to instantiate was evaluated, and, when it defines a factory, drained. */
  lemma RunFirstEffect(host: Host, st: State, specifier: Specifier, containingFile: string, r: Out<FileName>, i: Out<()>, d: Out<()>)
    requires Valid(host, st)
    requires ResolvesTo(host, st, specifier, containingFile, r) && r.Ok?
    requires var st1 := r.st.(scriptFileNames := [r.value]);
             && (st1.registry[r.value].deps.None? ==> InstantiateEffect(host, st1, r.value, i))
             && i.Ok? && Evolves(host, st1, i.st) && DrainPost(host, i.st, d)
    ensures RunEffect(host, st, if d.Fail? then Fail(d.err, d.st) else Ok(r.value, d.st))
  {
    var f := r.value;
    var st1 := r.st.(scriptFileNames := [f]);
    if d.Ok? && FirstRun(st, f) {
      assert st1.registry[f].deps.None? && !st1.registry[f].hasRun;
      assert Instantiated(host, st1, f, i.st);
      assert d.st.registry[f].outputCode == i.st.registry[f].outputCode;
      EvaluatedMono(st.calls, st1.calls, i.st.calls, d.st.calls, f);
      if DefinesFactory(host, d.st.registry[f]) {
        assert f in i.st.runQueue;
        QueuedFactoryRan(host, st.calls, i.st, d, f);
      }
    }
  }

  /** A module queued when a drain starts has, once the drain completes, run and had its factory called. */
  lemma QueuedFactoryRan(host: Host, before: seq<Call>, st: State, d: Out<()>, fileName: FileName)
    requires DrainPost(host, st, d) && d.Ok?
    requires fileName in st.runQueue && |before| <= |st.calls|
    ensures fileName in d.st.registry && d.st.registry[fileName].hasRun
    ensures FactoryRan(before, d.st.calls, fileName)
  {
    var k :| 0 <= k < |st.runQueue| && st.runQueue[k] == fileName;
    var log := d.st.calls[|st.calls|..];
    assert log[k].FactoryCall? && log[k].fileName == fileName;
    assert d.st.calls[|st.calls| + k] == log[k];
  }

  /** Every entry of a prefix of a queue is in the queue. */
  lemma QueueKept(q: seq<FileName>, q': seq<FileName>)
    requires q <= q'
    ensures forall g :: g in q ==> g in q'
  {
    forall g | g in q
      ensures g in q'
    {
      var k :| 0 <= k < |q| && q[k] == g;
      assert q'[k] == g;
    }
  }

  /**
    Running a module whose dependency list is recorded, with an empty run
    queue, compiles, evaluates and runs nothing: at most the fetcher is
    asked again.
   */
  lemma RunAgainDoesNothing(host: Host, st: State, specifier: Specifier, containingFile: string)
    requires Valid(host, st) && st.runQueue == []
    requires FetchModule(host, specifier, containingFile).moduleId != ""
    requires var f := FetchModule(host, specifier, containingFile).fileName;
             f in st.registry && st.registry[f].deps.Some?
    ensures var o := Run(host, st, specifier, containingFile);
            && o == Ok(FetchModule(host, specifier, containingFile).fileName, o.st)
            && o.st.registry == st.registry
            && o.st.heap == st.heap
            && (o.st.calls == st.calls || o.st.calls == st.calls + [FetchCall(specifier, containingFile)])
  {
    var r := Resolve(host, st, specifier, containingFile);
    assert r.st.registry == st.registry;
  }

  /**
    `run` on a module seen for the first time, with nothing queued, whose
    fetched source compiles: when the compiled code does not call
    `define`, `run` succeeds; when it calls `define` with only "require"
    and "exports" and a factory that returns, `run` succeeds, having
    called that factory and marked the module as run.
   */
  lemma RunLeaf(host: Host, st: State, specifier: Specifier, containingFile: string)
    requires Valid(host, st) && st.runQueue == []
    requires var fetched := FetchModule(host, specifier, containingFile);
             var out := host.emit(fetched.fileName, fetched.sourceCode);
             && fetched.moduleId != "" && fetched.fileName !in st.registry
             && |AllDiagnostics(out)| == 0 && !out.emitSkipped && |out.outputFiles| == 1
    requires var fetched := FetchModule(host, specifier, containingFile);
             var out := host.emit(fetched.fileName, fetched.sourceCode);
             var e := host.eval(out.outputFiles[0] + SourceUrlTrailer(fetched.fileName));
             || e.NoDefine?
             || (e.CallsDefine? && OnlySentinels(e.deps) && forall vs :: host.invoke(e.factory, vs).Returned?)
    ensures var fetched := FetchModule(host, specifier, containingFile);
            var out := host.emit(fetched.fileName, fetched.sourceCode);
            var e := host.eval(out.outputFiles[0] + SourceUrlTrailer(fetched.fileName));
            var o := Run(host, st, specifier, containingFile);
            && o == Ok(fetched.fileName, o.st)
            && (e.CallsDefine? ==>
                  o.st.registry[fetched.fileName].hasRun && FactoryRan(st.calls, o.st.calls, fetched.fileName))
  {
    var fetched := FetchModule(host, specifier, containingFile);
    var f := fetched.fileName;
    RunFresh(host, st, specifier, containingFile);
    var st1 := Resolve(host, st, specifier, containingFile).st.(scriptFileNames := [f]);
    match host.eval(CompiledCode(host, st1.registry[f]))
    case NoDefine =>
      InstantiateNoDefine(host, st1, f);
    case CallsDefine(deps, factory) =>
      InstantiateLeaf(host, st1, f, deps, factory);
      var i := Instantiate(host, st1, f);
      RunLeafDrain(host, i.st);
      QueuedFactoryRan(host, st.calls, i.st, Drain(host, i.st), f);
  }

  /**
    `run` on a module seen for the first time registers it fresh from the
    fetch, then instantiates it and drains the queue.
   */
  lemma RunFresh(host: Host, st: State, specifier: Specifier, containingFile: string)
    requires Valid(host, st)
    requires var fetched := FetchModule(host, specifier, containingFile);
             fetched.moduleId != "" && fetched.fileName !in st.registry
    ensures var fetched := FetchModule(host, specifier, containingFile);
            var a := fetched.fileName;
            var st1 := Resolve(host, st, specifier, containingFile).st.(scriptFileNames := [a]);
            && Valid(host, st1) && a in st1.registry && FreshFrom(st1.registry[a], fetched)
            && st1.registry.Keys == st.registry.Keys + {a}
            && st1.runQueue == st.runQueue && st.calls <= st1.calls
            && var i := Instantiate(host, st1, a);
               i.Ok? ==>
                 var d := Drain(host, i.st);
                 Run(host, st, specifier, containingFile) == if d.Fail? then Fail(d.err, d.st) else Ok(a, d.st)
  {
    var fetched := FetchModule(host, specifier, containingFile);
    var r := Resolve(host, st, specifier, containingFile);
    assert FreshFrom(r.st.registry[fetched.fileName], fetched);
    var st1 := r.st.(scriptFileNames := [fetched.fileName]);
    assert Valid(host, st1);
  }

  /** Does the log `after`, past the log `before`, call `first`'s factory and later `second`'s? */
  predicate FactoryRanBefore(before: seq<Call>, after: seq<Call>, first: FileName, second: FileName) {
    exists j, k ::
      && |before| <= j < k < |after|
      && after[j].FactoryCall? && after[j].fileName == first
      && after[k].FactoryCall? && after[k].fileName == second
  }

  /** Two consecutive factory calls past `before` witness the order. */
  lemma RanBeforeAt(before: seq<Call>, after: seq<Call>, j: nat, first: FileName, second: FileName)
    requires |before| <= j && j + 1 < |after|
    requires after[j].FactoryCall? && after[j].fileName == first
    requires after[j + 1].FactoryCall? && after[j + 1].fileName == second
    ensures FactoryRanBefore(before, after, first, second)
  {
  }

  /**
    A `run` of the module `specifier` names that succeeded, marked that
    module and the one `declared` resolves to from it as run, and called the
    dependency's factory before the module's.
   */
  predicate RanDependencyFirst(host: Host, st: State, specifier: Specifier, containingFile: string, declared: Specifier, o: Out<FileName>) {
    var a := FetchModule(host, specifier, containingFile).fileName;
    var b := FetchModule(host, declared, a).fileName;
    && o == Ok(a, o.st)
    && a in o.st.registry && o.st.registry[a].hasRun
    && b in o.st.registry && o.st.registry[b].hasRun
    && FactoryRanBefore(st.calls, o.st.calls, b, a)
  }

  /**
    `run` on a module seen for the first time, with nothing queued, whose
    fetched source compiles to code that calls `define` with one declared
    dependency and a factory that returns; the dependency, resolved from
    the module, is another module seen for the first time whose source
    compiles to code that calls `define` with only "require" and "exports"
    and a factory that returns. Then `run` succeeds, and the dependency's
    factory is called before the module's.
   */
  lemma RunWithOneDependency(host: Host, st: State, specifier: Specifier, containingFile: string, declared: Specifier,
                             factory: FactoryId, depDeps: seq<string>, depFactory: FactoryId)
    requires Valid(host, st) && st.runQueue == [] && !IsSentinel(declared)
    requires var fetched := FetchModule(host, specifier, containingFile);
             var out := host.emit(fetched.fileName, fetched.sourceCode);
             && fetched.moduleId != "" && fetched.fileName !in st.registry
             && |AllDiagnostics(out)| == 0 && !out.emitSkipped && |out.outputFiles| == 1
             && host.eval(out.outputFiles[0] + SourceUrlTrailer(fetched.fileName)) == CallsDefine([declared], factory)
    requires var a := FetchModule(host, specifier, containingFile).fileName;
             var fetched := FetchModule(host, declared, a);
             && fetched.moduleId != "" && fetched.fileName !in st.registry && fetched.fileName != a
             && LeafSource(host, fetched, depDeps, depFactory)
    requires AlwaysReturns(host, factory) && AlwaysReturns(host, depFactory)
    ensures RanDependencyFirst(host, st, specifier, containingFile, declared, Run(host, st, specifier, containingFile))
  {
    var fetched := FetchModule(host, specifier, containingFile);
    var a := fetched.fileName;
    var b := FetchModule(host, declared, a).fileName;
    RunFresh(host, st, specifier, containingFile);
    var st1 := Resolve(host, st, specifier, containingFile).st.(scriptFileNames := [a]);
    InstantiateOneDependency(host, st1, a, declared, factory, depDeps, depFactory);
    var i := Instantiate(host, st1, a);
    assert i.st.runQueue == [b, a];
    DrainPair(host, i.st);
    var d := Drain(host, i.st);
    RanBeforeAt(st.calls, d.st.calls, |i.st.calls|, b, a);
  }

  /** Draining a queue that holds one ready record whose factory returns whatever it is passed. */
  lemma RunLeafDrain(host: Host, st: State)
    requires Valid(host, st) && |st.runQueue| == 1 && Ready(st.registry[st.runQueue[0]])
    requires forall vs :: host.invoke(st.registry[st.runQueue[0]].factory.value, vs).Returned?
    ensures Drain(host, st).Ok?
  {
    var f := st.runQueue[0];
    var args := FactoryArguments(host, st, f).value;
    DrainFront(host, st);
    assert host.invoke(st.registry[f].factory.value, Views(st.heap, args)).Returned?;
  }

  /**
    `transform`: resolve the id from no containing file, make the id itself
    the only root of the compile scope, and return the compiled code.
   */
  function Transform(host: Host, st: State, moduleId: string): (o: Out<string>)
    requires Valid(host, st)
    ensures Valid(host, o.st)
    ensures FetchModule(host, moduleId, "").moduleId == "" ==> o.Fail? && o.err == ResolutionError(moduleId, "")
    ensures FetchModule(host, moduleId, "").moduleId != "" ==> o.st.scriptFileNames == [moduleId]
    ensures o.Ok? ==>
              var f := FetchModule(host, moduleId, "").fileName;
              && f in o.st.registry
              && o.st.registry[f].outputCode == Some(o.value)
              && HasOutput(o.st.registry[f])
    ensures o.st.runQueue == st.runQueue
    ensures forall g :: g in st.registry ==> g in o.st.registry && o.st.registry[g].hasRun == st.registry[g].hasRun
    ensures var r := Resolve(host, st, moduleId, "");
            r.Ok? ==>
              var m := r.st.registry[r.value];
              && (o.Ok? <==> Compilable(host, m))
              && (o.Ok? ==> o.value == CompiledCode(host, m))
              && (o.Fail? ==> EmitFailure(host, m, o.err))
  {
    var r := Resolve(host, st, moduleId, "");
    if r.Fail? then
      Fail(r.err, r.st)
    else
      var st1 := r.st.(scriptFileNames := [moduleId]);
      assert Valid(host, st1);
      CompileModule(host, st1, r.value)
  }

  /**
    The first `transform` of an id names the fetched module's emit: it
    succeeds exactly when emitting the fetched source reports no
    diagnostic, is not skipped and yields one file, and then returns that
    file with the source-URL trailer.
   */
  lemma TransformFirstCompile(host: Host, st: State, moduleId: string)
    requires Valid(host, st)
    requires var fetched := FetchModule(host, moduleId, "");
             fetched.moduleId != "" && fetched.fileName !in st.registry
    ensures var fetched := FetchModule(host, moduleId, "");
            var out := host.emit(fetched.fileName, fetched.sourceCode);
            var o := Transform(host, st, moduleId);
            && (o.Ok? <==> |AllDiagnostics(out)| == 0 && !out.emitSkipped && |out.outputFiles| == 1)
            && (o.Ok? ==> o.value == out.outputFiles[0] + SourceUrlTrailer(fetched.fileName))
  {
    var r := Resolve(host, st, moduleId, "");
    assert FreshFrom(r.st.registry[r.value], FetchModule(host, moduleId, ""));
  }

  /** A second `transform` of the same id returns the same code without asking for an emit. */
  lemma TransformIsMemoised(host: Host, st: State, moduleId: string)
    requires Valid(host, st)
    requires Transform(host, st, moduleId).Ok?
    ensures var o := Transform(host, st, moduleId);
            var o' := Transform(host, o.st, moduleId);
            && o' == Ok(o.value, o'.st)
            && o'.st.registry == o.st.registry
            && (o'.st.calls == o.st.calls || o'.st.calls == o.st.calls + [FetchCall(moduleId, "")])
  {
    var o := Transform(host, st, moduleId);
    var r := Resolve(host, o.st, moduleId, "");
    assert r.st.registry == o.st.registry;
  }

  /** What the local `require` reports to its caller. */
  datatype RequireOutcome = Callback(exports: Value) | Errback(err: Error)

  /**
    The local `require` bound to `owner`: it takes exactly one specifier,
    runs it from `owner`, and passes the module's exports object to the
    callback, or the error to the errback.
   */
  function LocalRequire(host: Host, st: State, owner: FileName, deps: seq<Specifier>): (o: Out<RequireOutcome>)
    requires Valid(host, st)
    ensures o.Fail? <==> |deps| != 1
    ensures o.Fail? ==> o.err == LocalRequireArity(|deps|) && o.st == st
    ensures Valid(host, o.st)
    ensures o.Ok? && o.value.Callback? ==>
              var f := FetchModule(host, deps[0], owner).fileName;
              && f in o.st.registry
              && o.value.exports == ExportsObject(o.st.registry[f].exports)
              && o.st.runQueue == []
    ensures |deps| == 1 && FetchModule(host, deps[0], owner).moduleId == "" ==>
              o == Ok(Errback(ResolutionError(deps[0], owner)), o.st)
    ensures |deps| == 1 ==>
              var r := Run(host, st, deps[0], owner);
              && o.Ok? && o.st == r.st
              && (o.value.Callback? <==> r.Ok?)
              && (o.value.Errback? ==> o.value.err == r.err)
  {
    if |deps| != 1 then
      Fail(LocalRequireArity(|deps|), st)
    else
      var r := Run(host, st, deps[0], owner);
      if r.Fail? then Ok(Errback(r.err), r.st)
      else Ok(Callback(ExportsObject(r.st.registry[r.value].exports)), r.st)
  }
}

=== FILE: media.dfy ===
/**
  Classification of a module by the extension of its resolved id (the
  `mediaType` table) and the script kind the language service is told to
  parse it as (`getScriptKind`).
 */
module Media {

  datatype MediaType = JavaScript | TypeScript | Json | Unknown

  /** The script kinds the host hands to the language service. */
  datatype ScriptKind = JS | TS | JSON

  /** Index of the last occurrence of `c` in `s`, or -1 when there is none. */
  function LastIndex(s: string, c: char): (k: int)
    ensures -1 <= k < |s|
    ensures k >= 0 ==> s[k] == c
    ensures forall j :: k < j < |s| ==> s[j] != c
  {
    if |s| == 0 then -1
    else if s[|s| - 1] == c then |s| - 1
    else LastIndex(s[..|s| - 1], c)
  }

  /** The last segment of a path: everything after its last '/'. */
  function LastSegment(path: string): (seg: string)
    ensures |seg| <= |path| && seg == path[|path| - |seg|..]
    ensures forall j :: 0 <= j < |seg| ==> seg[j] != '/'
  {
    path[LastIndex(path, '/') + 1..]
  }

  /**
    The extension of a path: the suffix of its last segment that starts at
    that segment's last '.', or "" when the segment has no '.' or only a
    leading one (a dot-file).
   */
  function Extname(path: string): (e: string)
    ensures |e| <= |path| && e == path[|path| - |e|..]
    ensures |e| == 0 || e[0] == '.'
    ensures forall j :: 0 <= j < |e| ==> e[j] != '/'
    ensures forall j :: 0 < j < |e| ==> e[j] != '.'
  {
    var segment := LastSegment(path);
    var dot := LastIndex(segment, '.');
    if dot <= 0 then ""
    else
      var e := segment[dot..];
      assert e == path[|path| - |e|..] by {
        assert segment[dot..] == path[|path| - |segment|..][dot..];
      }
      e
  }

  /** The extension-to-media-type table. */
  function MediaTypeOf(moduleId: string): MediaType {
    match Extname(moduleId)
    case ".ts" => TypeScript
    case ".js" => JavaScript
    case ".json" => Json
    case _ => Unknown
  }

  /**
    The script kind reported for a module of the given media type. Media
    types outside the table are parsed as JavaScript because the compiler
    settings allow JavaScript input.
   */
  function ScriptKindOf(t: MediaType): (k: ScriptKind)
    ensures k == TS <==> t == TypeScript
    ensures k == JSON <==> t == Json
    ensures k == JS <==> t == JavaScript || t == Unknown
  {
    match t
    case TypeScript => TS
    case JavaScript => JS
    case Json => JSON
    case Unknown => JS
  }

  /** Appending a suffix without `c` does not move the last `c`. */
  lemma {:induction false} LastIndexAppendWithout(a: string, b: string, c: char)
    requires forall j :: 0 <= j < |b| ==> b[j] != c
    ensures LastIndex(a + b, c) == LastIndex(a, c)
    decreases |b|
  {
    if |b| == 0 {
      assert a + b == a;
    } else {
      var b' := b[..|b| - 1];
      assert (a + b)[..|a + b| - 1] == a + b';
      LastIndexAppendWithout(a, b', c);
    }
  }

  lemma LastIndexOfAppended(a: string, c: char)
    ensures LastIndex(a + [c], c) == |a|
  {
  }

  /**
    A non-empty final segment followed by an extension (a '.' and at least
    one more character, with no '/' and no further '.') has exactly that
    extension.
   */
  lemma ExtnameOfSuffix(stem: string, ext: string)
    requires |ext| >= 2 && ext[0] == '.'
    requires forall j :: 0 <= j < |ext| ==> ext[j] != '/'
    requires forall j :: 1 <= j < |ext| ==> ext[j] != '.'
    requires |stem| > 0 && stem[|stem| - 1] != '/'
    ensures Extname(stem + ext) == ext
  {
    var path := stem + ext;
    LastIndexAppendWithout(stem, ext, '/');
    var slash := LastIndex(path, '/');
    assert slash < |stem| - 1;
    var head := stem[slash + 1..];
    var segment := LastSegment(path);
    assert segment == head + ext;
    var rest := ext[1..];
    assert ext == ['.'] + rest;
    assert segment == (head + ['.']) + rest;
    LastIndexAppendWithout(head + ['.'], rest, '.');
    LastIndexOfAppended(head, '.');
    assert LastIndex(segment, '.') == |head|;
    assert segment[|head|..] == ext;
  }

  /** The media-type table, stated on paths: `.ts`, `.js` and `.json` are recognised by their suffix. */
  lemma MediaTypeTable(stem: string)
    requires |stem| > 0 && stem[|stem| - 1] != '/'
    ensures MediaTypeOf(stem + ".ts") == TypeScript
    ensures MediaTypeOf(stem + ".js") == JavaScript
    ensures MediaTypeOf(stem + ".json") == Json
  {
    ExtnameOfSuffix(stem, ".ts");
    ExtnameOfSuffix(stem, ".js");
    ExtnameOfSuffix(stem, ".json");
  }

  /** An id with no '.' at all has no extension, so its media type is Unknown. */
  lemma NoDotIsUnknown(moduleId: string)
    requires forall j :: 0 <= j < |moduleId| ==> moduleId[j] != '.'
    ensures MediaTypeOf(moduleId) == Unknown
  {
  }

  /** What `getScriptKind` reports for each extension in the table. */
  lemma ScriptKindByExtension(stem: string)
    requires |stem| > 0 && stem[|stem| - 1] != '/'
    ensures ScriptKindOf(MediaTypeOf(stem + ".ts")) == TS
    ensures ScriptKindOf(MediaTypeOf(stem + ".js")) == JS
    ensures ScriptKindOf(MediaTypeOf(stem + ".json")) == JSON
  {
    MediaTypeTable(stem);
  }
}

=== FILE: record.dfy ===
/**
  The module record (`ModuleInfo`): the mutable state the loader keeps for
  one module, its reload, and the text-snapshot view the language service
  reads its source through.
 */
module ModuleRecord {
  import opened Base
  import opened Media

  /**
    One module. `exports` is a reference into the exports heap, so every
    dependent that received it sees later mutations. `deps`, once set,
    holds the declared dependency list with every entry other than
    "require" and "exports" replaced by the dependency's fileName.
   */
  datatype Record = Record(
    moduleId: string,
    fileName: FileName,
    version: nat,
    inputCode: string,
    outputCode: Option<string>,
    exports: ObjRef,
    hasRun: bool,
    factory: Option<FactoryId>,
    gatheringDeps: bool,
    deps: Option<seq<string>>,
    mediaType: MediaType)

  /** No compile output, factory, dependency list or run recorded for the current version. */
  predicate Pristine(m: Record) {
    && m.outputCode.None?
    && !m.hasRun
    && m.factory.None?
    && !m.gatheringDeps
    && m.deps.None?
  }

  /** A record the run queue can run: its factory and dependency list are recorded and it has not run. */
  predicate Ready(m: Record) {
    m.factory.Some? && m.deps.Some? && !m.hasRun
  }

  /**
    The constructor. A version of 0 (as the resolver passes) is falsy in
    JavaScript, so `version || 1` makes it 1. The exports object is the
    freshly allocated `exports`.
   */
  function NewRecord(moduleId: string, fileName: FileName, version: nat, mediaType: MediaType, exports: ObjRef): (m: Record)
    ensures Pristine(m)
    ensures m.moduleId == moduleId && m.fileName == fileName && m.mediaType == mediaType
    ensures m.exports == exports && m.inputCode == ""
    ensures m.version >= 1
    ensures version > 0 ==> m.version == version
  {
    Record(moduleId, fileName, if version == 0 then 1 else version, "", None, exports, false, None, false, None, mediaType)
  }

  /**
    `reload`: bump the version by one and forget everything derived from
    the previous version, including the exports object, which is replaced by
    the fresh object `freshExports`.
   */
  function Reload(m: Record, freshExports: ObjRef): (r: Record)
    ensures r.version == m.version + 1
    ensures Pristine(r)
    ensures r.exports == freshExports
    ensures r.moduleId == m.moduleId && r.fileName == m.fileName
    ensures r.inputCode == m.inputCode && r.mediaType == m.mediaType
  {
    m.(hasRun := false, exports := freshExports, factory := None, gatheringDeps := false,
       deps := None, version := m.version + 1, outputCode := None)
  }

  /** A reloaded record is the record the constructor would build at the next version. */
  lemma ReloadIsRebuild(m: Record, freshExports: ObjRef)
    ensures Reload(m, freshExports)
         == NewRecord(m.moduleId, m.fileName, m.version + 1, m.mediaType, freshExports).(inputCode := m.inputCode)
  {
  }

  /** Clamp a `substring` argument to the string's bounds. */
  function ClampIndex(i: int, len: nat): (k: nat)
    ensures k <= len
    ensures 0 <= i <= len ==> k == i
  {
    if i < 0 then 0 else if i > len then len else i
  }

  /**
    `getText(start, end)`: JavaScript `substring` on the source text, which
    clamps both arguments into range and swaps them when start exceeds end.
   */
  function GetText(m: Record, start: int, end: int): (t: string)
    ensures |t| <= |m.inputCode|
    ensures start <= end ==> |t| == ClampIndex(end, |m.inputCode|) - ClampIndex(start, |m.inputCode|)
  {
    var len := |m.inputCode|;
    var a := ClampIndex(start, len);
    var b := ClampIndex(end, len);
    if a <= b then m.inputCode[a..b] else m.inputCode[b..a]
  }

  /** `getLength()`: the length of the source text, the end of the snapshot that covers all of it. */
  function GetLength(m: Record): (n: nat)
    ensures GetText(m, 0, n) == m.inputCode
    ensures forall k :: n <= k ==> GetText(m, 0, k) == m.inputCode
  {
    |m.inputCode|
  }

  /** The whole snapshot, and any range that covers it, is the source text. */
  lemma GetTextWhole(m: Record, start: int, end: int)
    requires start <= 0 && end >= GetLength(m)
    ensures GetText(m, 0, GetLength(m)) == m.inputCode
    ensures GetText(m, start, end) == m.inputCode
    ensures GetText(m, end, start) == m.inputCode
  {
  }

  /** `substring` is symmetric in its arguments. */
  lemma GetTextSymmetric(m: Record, start: int, end: int)
    ensures GetText(m, start, end) == GetText(m, end, start)
  {
  }

  /** Adjacent in-range snapshots concatenate to the snapshot of their union. */
  lemma GetTextAdjacent(m: Record, a: int, b: int, c: int)
    requires 0 <= a <= b <= c <= GetLength(m)
    ensures GetText(m, a, b) + GetText(m, b, c) == GetText(m, a, c)
  {
    assert m.inputCode[a..b] + m.inputCode[b..c] == m.inputCode[a..c];
  }

  /** Characters of an in-range snapshot are the source characters at the same offsets. */
  lemma GetTextChars(m: Record, start: int, end: int, i: int)
    requires 0 <= start <= end <= GetLength(m)
    requires 0 <= i < end - start
    ensures GetText(m, start, end)[i] == m.inputCode[start + i]
  {
  }
}

=== FILE: resolver.dfy ===
/**
  Module resolution (`resolveModule`, `getModuleInfo`): turning a
  specifier and a containing file into the canonical record for the file it
  names, creating that record on first sight.

  The source keys its specifier cache by freshly built two-element arrays,
  and a JavaScript Map compares such keys by identity, so its lookup never
  hits. `ResolveAsWritten` models that behaviour: it never consults the
  cache. `Resolve` keys the cache by the pair's contents, as evidently
  intended; `ResolveAgreesWithAsWritten` shows the two return the same
  record and leave the same registry, so the rest of the model uses
  `Resolve`.
 */
module Resolver {
  import opened Base
  import opened Media
  import opened ModuleRecord
  import ModuleCache
  import opened Collaborators
  import opened LoaderState

  /** The record created for a module on its first resolution. */
  predicate FreshFrom(m: Record, fetched: Fetched) {
    && Pristine(m)
    && m.moduleId == fetched.moduleId
    && m.fileName == fetched.fileName
    && m.inputCode == fetched.sourceCode
    && m.mediaType == MediaTypeOf(fetched.moduleId)
    && m.version == 1
  }

  /**
    What resolution may change: it may register new records and cache
    pairs, but no existing record changes, no gathering starts, and the run
    queue, the `define` binding and the compile scope are as they were.
   */
  predicate OnlyRegisters(host: Host, st: State, st': State) {
    && Evolves(host, st, st')
    && Untouched(st, st', st.registry.Keys)
    && Gathering(st') == Gathering(st)
    && st'.runQueue == st.runQueue
    && st'.define == st.define
    && st'.scriptFileNames == st.scriptFileNames
  }

  /**
    The contract of resolving `specifier` from `containingFile`: it
    succeeds exactly when the fetcher yields a module id, the result is the
    fetched fileName, and the only record it can add is that one, built
    from the fetched source.
   */
  predicate ResolvesTo(host: Host, st: State, specifier: Specifier, containingFile: string, o: Out<FileName>) {
    var fetched := FetchModule(host, specifier, containingFile);
    && OnlyRegisters(host, st, o.st)
    && (o.Ok? <==> fetched.moduleId != "")
    && (o.Fail? ==> o.err == ResolutionError(specifier, containingFile))
    && (o.Ok? ==> o.value == fetched.fileName && o.value in o.st.registry)
    && o.st.registry.Keys <= st.registry.Keys + {fetched.fileName}
    && (o.Ok? && o.value !in st.registry ==> FreshFrom(o.st.registry[o.value], fetched))
  }

  /**
    The fetching half of `resolveModule`: ask the fetcher, fail when it
    yields no module id, return the record already registered under the
    fetched fileName, and otherwise register a new record.
   */
  function ResolveByFetch(host: Host, st: State, specifier: Specifier, containingFile: string): (o: Out<FileName>)
    requires Valid(host, st)
    ensures ResolvesTo(host, st, specifier, containingFile, o)
    ensures o.st.calls == st.calls + [FetchCall(specifier, containingFile)]
    ensures o.Ok? && o.value in st.registry ==> o.st.registry == st.registry
  {
    var fetched := FetchModule(host, specifier, containingFile);
    var st1 := st.(calls := st.calls + [FetchCall(specifier, containingFile)]);
    FetchLogged(host, st, specifier, containingFile);
    if fetched.moduleId == "" then
      Fail(ResolutionError(specifier, containingFile), st1)
    else if ModuleCache.Has(st1.registry, fetched.fileName) then
      Ok(fetched.fileName, st1)
    else
      var o := Register(host, st1, specifier, containingFile);
      OnlyRegistersTransitive(host, st, st1, o.st);
      o
  }

  /** Logging the fetch changes nothing resolution promises to keep. */
  lemma FetchLogged(host: Host, st: State, specifier: Specifier, containingFile: string)
    requires Valid(host, st)
    ensures var st1 := st.(calls := st.calls + [FetchCall(specifier, containingFile)]);
            && Valid(host, st1)
            && OnlyRegisters(host, st, st1)
  {
  }

  /**
    Register a new record for a fetched module whose fileName is not yet
    registered: a fresh exports object, the fetched source, the media type
    of the module id, and a specifier-cache entry for the pair.
   */
  function Register(host: Host, st: State, specifier: Specifier, containingFile: string): (o: Out<FileName>)
    requires Valid(host, st)
    requires FetchModule(host, specifier, containingFile).moduleId != ""
    requires FetchModule(host, specifier, containingFile).fileName !in st.registry
    ensures o.Ok? && o.value == FetchModule(host, specifier, containingFile).fileName
    ensures OnlyRegisters(host, st, o.st) && o.st.calls == st.calls
    ensures o.st.registry.Keys == st.registry.Keys + {o.value}
    ensures FreshFrom(o.st.registry[o.value], FetchModule(host, specifier, containingFile))
  {
    var fetched := FetchModule(host, specifier, containingFile);
    FetchedNameIsKnown(host, specifier, containingFile);
    var m := NewRecord(fetched.moduleId, fetched.fileName, 0, MediaTypeOf(fetched.moduleId), st.nextRef)
             .(inputCode := fetched.sourceCode);
    var st' := st.(registry := ModuleCache.Set(st.registry, m),
                   heap := st.heap[st.nextRef := map[]],
                   nextRef := st.nextRef + 1,
                   specifierCache := st.specifierCache[(specifier, containingFile) := fetched.fileName]);
    RegisterKeepsValid(host, st, st', m, (specifier, containingFile));
    Ok(fetched.fileName, st')
  }

  lemma RegisterKeepsValid(host: Host, st: State, st': State, m: Record, key: (Specifier, string))
    requires Valid(host, st)
    requires key in host.fetchTable && host.fetchTable[key].moduleId != ""
    requires m.fileName == host.fetchTable[key].fileName && m.fileName !in st.registry
    requires m.deps.None? && !m.gatheringDeps && m.exports == st.nextRef
    requires st' == st.(registry := st.registry[m.fileName := m], heap := st.heap[st.nextRef := map[]],
                        nextRef := st.nextRef + 1, specifierCache := st.specifierCache[key := m.fileName])
    ensures Valid(host, st')
    ensures OnlyRegisters(host, st, st')
  {
    assert CacheSound(host, st');
    assert QueueWellFormed(st');
    forall f | f in st'.registry && st'.registry[f].deps.Some?
      ensures DepsIn(st'.registry[f].deps.value, st'.registry)
    {
      DepsInGrow(st.registry[f].deps.value, st.registry, st'.registry);
    }
    assert Valid(host, st');
    RegisterFrame(host, st, st', m, key);
  }

  /** Registration adds one record, with a fetched name, and changes no other. */
  lemma RegisterFrame(host: Host, st: State, st': State, m: Record, key: (Specifier, string))
    requires Valid(host, st') && key in host.fetchTable
    requires m.fileName == host.fetchTable[key].fileName && m.fileName !in st.registry && !m.gatheringDeps
    requires st' == st.(registry := st.registry[m.fileName := m], heap := st.heap[st.nextRef := map[]],
                        nextRef := st.nextRef + 1, specifierCache := st.specifierCache[key := m.fileName])
    ensures OnlyRegisters(host, st, st')
  {
    assert m.fileName in FetchedNames(host);
    assert Gathering(st') == Gathering(st);
  }

  /** `resolveModule` as written: the specifier cache is never consulted. */
  function ResolveAsWritten(host: Host, st: State, specifier: Specifier, containingFile: string): (o: Out<FileName>)
    requires Valid(host, st)
    ensures ResolvesTo(host, st, specifier, containingFile, o)
    ensures o.st.calls == st.calls + [FetchCall(specifier, containingFile)]
  {
    ResolveByFetch(host, st, specifier, containingFile)
  }

  /**
    `resolveModule` with the specifier cache keyed by the pair's contents:
    a cached pair whose fileName is non-empty and registered is answered
    without calling the fetcher.
   */
  function Resolve(host: Host, st: State, specifier: Specifier, containingFile: string): (o: Out<FileName>)
    requires Valid(host, st)
    ensures ResolvesTo(host, st, specifier, containingFile, o)
    ensures o.st.calls == st.calls || o.st.calls == st.calls + [FetchCall(specifier, containingFile)]
    ensures var key := (specifier, containingFile);
            key in st.specifierCache && st.specifierCache[key] != "" ==> o == Ok(st.specifierCache[key], st)
  {
    var key := (specifier, containingFile);
    if key in st.specifierCache && st.specifierCache[key] != "" && ModuleCache.Has(st.registry, st.specifierCache[key]) then
      Ok(st.specifierCache[key], st)
    else
      ResolveByFetch(host, st, specifier, containingFile)
  }

  /**
    Both resolvers return the same record and leave the same state, the
    registry and cache included; they differ only in the fetch the
    as-written one logs.
   */
  lemma ResolveAgreesWithAsWritten(host: Host, st: State, specifier: Specifier, containingFile: string)
    requires Valid(host, st)
    ensures Resolve(host, st, specifier, containingFile).Ok? == ResolveAsWritten(host, st, specifier, containingFile).Ok?
    ensures Resolve(host, st, specifier, containingFile).Ok? ==>
              Resolve(host, st, specifier, containingFile).value == ResolveAsWritten(host, st, specifier, containingFile).value
    ensures Resolve(host, st, specifier, containingFile).st.registry == ResolveAsWritten(host, st, specifier, containingFile).st.registry
    ensures Resolve(host, st, specifier, containingFile).st.specifierCache
         == ResolveAsWritten(host, st, specifier, containingFile).st.specifierCache
    ensures var o := Resolve(host, st, specifier, containingFile);
            o.st == ResolveAsWritten(host, st, specifier, containingFile).st.(calls := o.st.calls)
  {
  }

  /**
    A pair that created a record is answered from the cache the next time,
    without a fetch, while the as-written resolver fetches again.
   */
  lemma SecondResolutionSkipsFetch(host: Host, st: State, specifier: Specifier, containingFile: string)
    requires Valid(host, st)
    requires Resolve(host, st, specifier, containingFile).Ok?
    requires Resolve(host, st, specifier, containingFile).value !in st.registry
    requires Resolve(host, st, specifier, containingFile).value != ""
    ensures var o := Resolve(host, st, specifier, containingFile);
            Resolve(host, o.st, specifier, containingFile) == Ok(o.value, o.st)
    ensures var o := Resolve(host, st, specifier, containingFile);
            ResolveAsWritten(host, o.st, specifier, containingFile).st.calls
            == o.st.calls + [FetchCall(specifier, containingFile)]
  {
  }

  /**
    Canonicalisation: two pairs the fetcher maps to the same fileName
    resolve to the same record, and the second resolution adds nothing.
   */
  lemma SameFileSameRecord(host: Host, st: State, s1: Specifier, c1: string, s2: Specifier, c2: string)
    requires Valid(host, st)
    requires FetchModule(host, s1, c1).moduleId != "" && FetchModule(host, s2, c2).moduleId != ""
    requires FetchModule(host, s1, c1).fileName == FetchModule(host, s2, c2).fileName
    ensures var o1 := Resolve(host, st, s1, c1);
            var o2 := Resolve(host, o1.st, s2, c2);
            o2.Ok? && o2.value == o1.value && o2.st.registry == o1.st.registry
  {
    var o1 := Resolve(host, st, s1, c1);
    var o2 := Resolve(host, o1.st, s2, c2);
    assert o2.st.registry.Keys <= o1.st.registry.Keys + {o1.value};
  }

  /**
    `getModuleInfo`: the record registered under `fileName`, or else the
    record `fileName` resolves to as a specifier from the empty containing
    file (which is then set again under its own fileName).
   */
  function GetModuleInfo(host: Host, st: State, fileName: FileName): (o: Out<FileName>)
    requires Valid(host, st)
    ensures fileName in st.registry ==> o == Ok(fileName, st)
    ensures fileName !in st.registry ==> ResolvesTo(host, st, fileName, "", o)
  {
    if ModuleCache.Has(st.registry, fileName) then
      Ok(fileName, st)
    else
      var r := Resolve(host, st, fileName, "");
      if r.Fail? then r
      else
        ModuleCache.SetStoredIsNoOp(r.st.registry, r.value);
        Ok(r.value, r.st.(registry := ModuleCache.Set(r.st.registry, r.st.registry[r.value])))
  }

  lemma OnlyRegistersTransitive(host: Host, s1: State, s2: State, s3: State)
    requires OnlyRegisters(host, s1, s2) && OnlyRegisters(host, s2, s3)
    ensures OnlyRegisters(host, s1, s3)
  {
  }
}

=== FILE: runqueue.dfy ===
/**
  Running factories: `getFactoryArguments` builds the argument list of a
  module's factory from its recorded dependency list, and `drainRunQueue`
  calls the queued factories in first-in first-out order.
 */
module RunQueue {
  import opened Base
  import opened ModuleRecord
  import opened Collaborators
  import opened LoaderState
  import opened Resolver

  /**
    The argument passed for one recorded dependency of `owner`: a local
    require for "require", the module's own exports object for "exports",
    and the registered dependency's exports object otherwise.
   */
  function ArgumentFor(reg: map<FileName, Record>, owner: FileName, dep: string): Value
    requires owner in reg
    requires IsSentinel(dep) || dep in reg
  {
    if dep == "require" then LocalRequireFn(owner)
    else if dep == "exports" then ExportsObject(reg[owner].exports)
    else ExportsObject(reg[dep].exports)
  }

  function Arguments(reg: map<FileName, Record>, owner: FileName, ds: seq<string>): (args: seq<Value>)
    requires owner in reg && DepsIn(ds, reg)
    ensures |args| == |ds|
    ensures forall i :: 0 <= i < |ds| ==> args[i] == ArgumentFor(reg, owner, ds[i])
  {
    seq(|ds|, i requires 0 <= i < |ds| => ArgumentFor(reg, owner, ds[i]))
  }

  /**
    `getFactoryArguments`: fails when the module's dependencies were never
    recorded, and otherwise maps the recorded list position by position.
   */
  function FactoryArguments(host: Host, st: State, owner: FileName): (r: Result<seq<Value>>)
    requires Valid(host, st) && owner in st.registry
    ensures r.Failure? <==> st.registry[owner].deps.None?
    ensures r.Failure? ==> r.error == DepsUnresolved(owner)
    ensures r.Success? ==> |r.value| == |st.registry[owner].deps.value|
    ensures r.Success? ==>
              forall i :: 0 <= i < |r.value| ==>
                var dep := st.registry[owner].deps.value[i];
                && (dep == "require" ==> r.value[i] == LocalRequireFn(owner))
                && (dep == "exports" ==> r.value[i] == ExportsObject(st.registry[owner].exports))
                && (!IsSentinel(dep) ==> dep in st.registry && r.value[i] == ExportsObject(st.registry[dep].exports))
  {
    match st.registry[owner].deps
    case None => Failure(DepsUnresolved(owner))
    case Some(ds) => Success(Arguments(st.registry, owner, ds))
  }

  /**
    The source looks every non-sentinel dependency up through
    `getModuleInfo`; on a valid state that lookup finds the registered
    record, fetches nothing and changes nothing, so the argument is that
    record's exports object.
   */
  lemma DependencyLookupIsPure(host: Host, st: State, owner: FileName, i: nat)
    requires Valid(host, st) && owner in st.registry && st.registry[owner].deps.Some?
    requires i < |st.registry[owner].deps.value| && !IsSentinel(st.registry[owner].deps.value[i])
    ensures var dep := st.registry[owner].deps.value[i];
            && GetModuleInfo(host, st, dep) == Ok(dep, st)
            && FactoryArguments(host, st, owner).value[i] == ExportsObject(st.registry[GetModuleInfo(host, st, dep).value].exports)
  {
    assert DepsIn(st.registry[owner].deps.value, st.registry);
  }

  /**
    A module's own "exports" argument and the argument any dependent
    receives for it are the same object, so what the module's factory
    writes there is what the dependent's factory later sees.
   */
  lemma SharedExports(host: Host, st: State, a: FileName, b: FileName, i: nat, j: nat)
    requires Valid(host, st) && a in st.registry && b in st.registry
    requires st.registry[a].deps.Some? && i < |st.registry[a].deps.value| && st.registry[a].deps.value[i] == "exports"
    requires st.registry[b].deps.Some? && j < |st.registry[b].deps.value| && st.registry[b].deps.value[j] == a
    requires !IsSentinel(a)
    ensures FactoryArguments(host, st, a).value[i] == FactoryArguments(host, st, b).value[j]
  {
  }

  /** What a factory observes of its arguments: the current contents of each exports object. */
  function View(heap: map<ObjRef, Props>, v: Value): (w: ArgView)
    ensures v.ExportsObject? ==> w.ObjectView? && w.ref == v.ref
    ensures v.ExportsObject? && v.ref in heap ==> w.props == heap[v.ref]
    ensures v.LocalRequireFn? ==> w == RequireView(v.owner)
  {
    match v
    case ExportsObject(r) => ObjectView(r, if r in heap then heap[r] else map[])
    case LocalRequireFn(owner) => RequireView(owner)
  }

  function Views(heap: map<ObjRef, Props>, args: seq<Value>): (ws: seq<ArgView>)
    ensures |ws| == |args|
    ensures forall i :: 0 <= i < |args| ==> ws[i] == View(heap, args[i])
  {
    seq(|args|, i requires 0 <= i < |args| => View(heap, args[i]))
  }

  /** The number of positions a factory call can write: its arguments paired with its writes. */
  function Paired(args: seq<Value>, writes: seq<Option<Props>>): nat {
    if |args| < |writes| then |args| else |writes|
  }

  /** Does position `i` of a factory call write into an object? */
  predicate WritesAt(args: seq<Value>, writes: seq<Option<Props>>, i: nat)
    requires i < Paired(args, writes)
  {
    args[i].ExportsObject? && writes[i].Some?
  }

  /** The objects the first `n` positions of a factory call write into. */
  function Written(args: seq<Value>, writes: seq<Option<Props>>, n: nat): (w: set<ObjRef>)
    requires n <= Paired(args, writes)
    ensures forall i :: 0 <= i < n && WritesAt(args, writes, i) ==> args[i].ref in w
  {
    if n == 0 then {}
    else Written(args, writes, n - 1) + (if WritesAt(args, writes, n - 1) then {args[n - 1].ref} else {})
  }

  /**
    The effect of the first `n` positions of a returned factory call on the
    exports heap: position by position, an object argument paired with new
    contents gets them.
   */
  function ApplyPrefix(heap: map<ObjRef, Props>, args: seq<Value>, writes: seq<Option<Props>>, n: nat): (h: map<ObjRef, Props>)
    requires n <= Paired(args, writes)
    ensures h.Keys == heap.Keys + Written(args, writes, n)
    ensures forall r :: r in heap && r !in Written(args, writes, n) ==> h[r] == heap[r]
  {
    if n == 0 then heap
    else
      var h0 := ApplyPrefix(heap, args, writes, n - 1);
      if WritesAt(args, writes, n - 1) then h0[args[n - 1].ref := writes[n - 1].value] else h0
  }

  /** The effect of a returned factory call on the exports heap. When one object is passed twice, the later position wins. */
  function ApplyWrites(heap: map<ObjRef, Props>, args: seq<Value>, writes: seq<Option<Props>>): map<ObjRef, Props> {
    ApplyPrefix(heap, args, writes, Paired(args, writes))
  }

  /** An object written at position `i`, and at no later position, holds that position's contents. */
  lemma {:induction false} LastWriteWins(heap: map<ObjRef, Props>, args: seq<Value>, writes: seq<Option<Props>>, n: nat, i: nat)
    requires i < n <= Paired(args, writes)
    requires WritesAt(args, writes, i)
    requires forall j :: i < j < n ==> args[j] != args[i] || writes[j].None?
    ensures args[i].ref in ApplyPrefix(heap, args, writes, n)
    ensures ApplyPrefix(heap, args, writes, n)[args[i].ref] == writes[i].value
  {
    if i < n - 1 {
      LastWriteWins(heap, args, writes, n - 1, i);
    }
  }

  /** Does `log` hold exactly one factory call per entry of `q`, in the order of `q`? */
  predicate CallsInOrder(log: seq<Call>, q: seq<FileName>) {
    && |log| == |q|
    && forall i :: 0 <= i < |q| ==> log[i].FactoryCall? && log[i].fileName == q[i]
  }

  /** Remove the front of the run queue. */
  function Shift(st: State): State
    requires |st.runQueue| > 0
  {
    st.(runQueue := st.runQueue[1..])
  }

  /** Mark `fileName` as run, after its factory returned having written `heap`. */
  function MarkRun(st: State, fileName: FileName, heap: map<ObjRef, Props>): State
    requires fileName in st.registry
  {
    st.(registry := st.registry[fileName := st.registry[fileName].(hasRun := true)], heap := heap)
  }

  /**
    Draining changes the records only by setting `hasRun`, never adds one,
    and leaves the queue a suffix of what it was.
   */
  predicate DrainFrame(host: Host, st: State, st': State) {
    && Valid(host, st')
    && st'.registry.Keys == st.registry.Keys
    && (forall g :: g in st.registry ==> st'.registry[g] == st.registry[g].(hasRun := st'.registry[g].hasRun))
    && (forall g :: g in st.registry && g !in st.runQueue ==> st'.registry[g].hasRun == st.registry[g].hasRun)
    && |st'.runQueue| <= |st.runQueue|
    && st'.runQueue == st.runQueue[|st.runQueue| - |st'.runQueue|..]
    && st'.define == st.define && st'.scriptFileNames == st.scriptFileNames
    && st.calls <= st'.calls
  }

  /** Every record in `q` has a factory, has not run and has its dependency list. */
  predicate Runnable(reg: map<FileName, Record>, q: seq<FileName>) {
    forall i :: 0 <= i < |q| ==>
      q[i] in reg && reg[q[i]].factory.Some? && !reg[q[i]].hasRun && reg[q[i]].deps.Some?
  }

  /** What `drainRunQueue` promises. */
  predicate DrainPost(host: Host, st: State, o: Out<()>) {
    DrainFrame(host, st, o.st) && DrainOutcome(st, o)
  }

  /** How a drain ends: with every queued factory called in order, or at the record whose check or factory threw. */
  predicate DrainOutcome(st: State, o: Out<()>) {
    && (o.Ok? ==> o.st.runQueue == [])
    && (o.Ok? ==> st.calls <= o.st.calls && CallsInOrder(o.st.calls[|st.calls|..], st.runQueue))
    && (o.Ok? ==> forall g :: g in st.runQueue ==> g in o.st.registry && o.st.registry[g].hasRun)
    && (o.Fail? ==> |o.st.runQueue| < |st.runQueue|)
    && (o.Fail? ==>
          var f := st.runQueue[|st.runQueue| - |o.st.runQueue| - 1];
          o.err in {NoFactory(f), AlreadyRun(f), DepsUnresolved(f), FactoryThrew(f)})
  }

  /**
    The error the drain raises for the popped record `f`, justified by the
    state it ends in: the first of its checks that fails, or, once all
    pass, its factory throwing on the views of the last logged call.
   */
  predicate RejectedBy(host: Host, st: State, f: FileName, e: Error)
    requires f in st.registry
  {
    var m := st.registry[f];
    match e
    case NoFactory(g) => g == f && m.factory.None?
    case AlreadyRun(g) => g == f && m.factory.Some? && m.hasRun
    case DepsUnresolved(g) => g == f && m.factory.Some? && !m.hasRun && m.deps.None?
    case FactoryThrew(g) =>
      && g == f && Ready(m)
      && |st.calls| > 0
      && var c := st.calls[|st.calls| - 1];
         c.FactoryCall? && c.fileName == f && host.invoke(m.factory.value, c.views).Threw?
    case _ => false
  }

  /** Why a drain that throws stopped: the record popped last, left as it was, is rejected. */
  predicate DrainFailure(host: Host, st: State, o: Out<()>) {
    o.Fail? && |o.st.runQueue| < |st.runQueue| ==>
      var f := st.runQueue[|st.runQueue| - |o.st.runQueue| - 1];
      && f in st.registry && f in o.st.registry && o.st.registry[f] == st.registry[f]
      && RejectedBy(host, o.st, f, o.err)
  }

  /**
    `drainRunQueue`: pop the front record, check it has a factory and has
    not run (the record is already off the queue when either check
    throws), call its factory with its arguments, mark it as run, and
    continue until the queue is empty.
   */
  function Drain(host: Host, st: State): (o: Out<()>)
    requires Valid(host, st)
    ensures DrainPost(host, st, o)
    ensures DrainFailure(host, st, o)
    decreases |st.runQueue|
  {
    if |st.runQueue| == 0 then
      DrainEmpty(host, st);
      Ok((), st)
    else
      var f := st.runQueue[0];
      var st1 := Shift(st);
      ShiftKeepsValid(host, st);
      var m := st1.registry[f];
      if m.factory.None? then
        DrainStops(host, st, NoFactory(f));
        Fail(NoFactory(f), st1)
      else if m.hasRun then
        DrainStops(host, st, AlreadyRun(f));
        Fail(AlreadyRun(f), st1)
      else
        var args := FactoryArguments(host, st1, f);
        if args.Failure? then
          DrainStops(host, st, DepsUnresolved(f));
          Fail(DepsUnresolved(f), st1)
        else
          var views := Views(st1.heap, args.value);
          var st2 := st1.(calls := st1.calls + [FactoryCall(f, views)]);
          match host.invoke(m.factory.value, views)
          case Threw =>
            DrainThrew(host, st, views);
            Fail(FactoryThrew(f), st2)
          case Returned(writes) =>
            var heap := ApplyWrites(st2.heap, args.value, writes);
            MarkRunKeepsValid(host, st, views, heap);
            var rest := Drain(host, MarkRun(st2, f, heap));
            DrainStep(host, st, views, heap, rest);
            DrainFailureStep(host, st, views, heap, rest);
            rest
  }

  lemma DrainEmpty(host: Host, st: State)
    requires Valid(host, st) && |st.runQueue| == 0
    ensures DrainPost(host, st, Ok((), st))
  {
  }

  lemma ShiftKeepsValid(host: Host, st: State)
    requires Valid(host, st) && |st.runQueue| > 0
    ensures Valid(host, Shift(st)) && st.runQueue[0] in st.registry
    ensures st.runQueue[0] !in Shift(st).runQueue
  {
    var q := st.runQueue;
    assert q[0] in st.registry;
    forall i | 0 <= i < |q[1..]|
      ensures q[1..][i] != q[0]
    {
      assert q[1..][i] == q[i + 1];
    }
  }

  /** Failing right after the pop, with the record still as it was. */
  lemma DrainStops(host: Host, st: State, e: Error)
    requires Valid(host, st) && |st.runQueue| > 0
    requires e in {NoFactory(st.runQueue[0]), AlreadyRun(st.runQueue[0]), DepsUnresolved(st.runQueue[0]), FactoryThrew(st.runQueue[0])}
    ensures DrainPost(host, st, Fail(e, Shift(st)))
  {
    ShiftKeepsValid(host, st);
    assert st.runQueue[1..] == st.runQueue[|st.runQueue| - |Shift(st).runQueue|..];
  }

  lemma DrainThrew(host: Host, st: State, views: seq<ArgView>)
    requires Valid(host, st) && |st.runQueue| > 0
    ensures DrainPost(host, st, Fail(FactoryThrew(st.runQueue[0]), Shift(st).(calls := st.calls + [FactoryCall(st.runQueue[0], views)])))
  {
    var f := st.runQueue[0];
    ShiftKeepsValid(host, st);
    var st2 := Shift(st).(calls := st.calls + [FactoryCall(f, views)]);
    assert st.runQueue[1..] == st.runQueue[|st.runQueue| - |st2.runQueue|..];
  }

  /** The state once the front record's factory has returned and the record is marked as run. */
  function AfterFactory(st: State, views: seq<ArgView>, heap: map<ObjRef, Props>): State
    requires |st.runQueue| > 0 && st.runQueue[0] in st.registry
  {
    var f := st.runQueue[0];
    MarkRun(Shift(st).(calls := st.calls + [FactoryCall(f, views)]), f, heap)
  }

  lemma MarkRunKeepsValid(host: Host, st: State, views: seq<ArgView>, heap: map<ObjRef, Props>)
    requires Valid(host, st) && |st.runQueue| > 0
    ensures st.runQueue[0] in st.registry
    ensures Valid(host, AfterFactory(st, views, heap))
  {
    var f := st.runQueue[0];
    ShiftKeepsValid(host, st);
    var st2 := Shift(st).(calls := st.calls + [FactoryCall(f, views)]);
    PutKeepsValid(host, st2, f, st2.registry[f].(hasRun := true));
  }

  /** Running the front record is itself a drain step. */
  lemma AfterFactoryFrame(host: Host, st: State, views: seq<ArgView>, heap: map<ObjRef, Props>)
    requires Valid(host, st) && |st.runQueue| > 0 && st.runQueue[0] in st.registry
    ensures DrainFrame(host, st, AfterFactory(st, views, heap))
    ensures AfterFactory(st, views, heap).runQueue == st.runQueue[1..]
    ensures AfterFactory(st, views, heap).registry[st.runQueue[0]].hasRun
  {
    MarkRunKeepsValid(host, st, views, heap);
  }

  lemma DrainFrameTrans(host: Host, s1: State, s2: State, s3: State)
    requires DrainFrame(host, s1, s2) && DrainFrame(host, s2, s3)
    ensures DrainFrame(host, s1, s3)
  {
    var n1, n2, n3 := |s1.runQueue|, |s2.runQueue|, |s3.runQueue|;
    assert s1.calls <= s3.calls by {
      assert s1.calls == s2.calls[..|s1.calls|];
      assert s2.calls == s3.calls[..|s2.calls|];
    }
    assert s3.runQueue == s1.runQueue[n1 - n3..] by {
      assert s3.runQueue == s2.runQueue[n2 - n3..];
      assert s2.runQueue == s1.runQueue[n1 - n2..];
    }
  }

  /** The rest of the drain composes with the step that ran the front record. */
  lemma DrainStep(host: Host, st: State, views: seq<ArgView>, heap: map<ObjRef, Props>, rest: Out<()>)
    requires Valid(host, st) && |st.runQueue| > 0 && st.runQueue[0] in st.registry
    requires DrainPost(host, AfterFactory(st, views, heap), rest)
    ensures DrainPost(host, st, rest)
  {
    var st3 := AfterFactory(st, views, heap);
    AfterFactoryFrame(host, st, views, heap);
    DrainFrameTrans(host, st, st3, rest.st);
    DrainOutcomeStep(st, st3, views, rest);
  }

  /** The record a later step of the drain rejects was not the front one, so the step left it as it was. */
  lemma DrainFailureStep(host: Host, st: State, views: seq<ArgView>, heap: map<ObjRef, Props>, rest: Out<()>)
    requires Valid(host, st) && |st.runQueue| > 0 && st.runQueue[0] in st.registry
    requires rest.Fail? ==> |rest.st.runQueue| < |AfterFactory(st, views, heap).runQueue|
    requires DrainFailure(host, AfterFactory(st, views, heap), rest)
    ensures DrainFailure(host, st, rest)
  {
    var st3 := AfterFactory(st, views, heap);
    if rest.Fail? {
      var n, k := |st.runQueue|, |rest.st.runQueue|;
      var f := st.runQueue[n - k - 1];
      assert st3.runQueue[|st3.runQueue| - k - 1] == f;
      assert f != st.runQueue[0];
    }
  }

  lemma DrainOutcomeStep(st: State, st3: State, views: seq<ArgView>, rest: Out<()>)
    requires |st.runQueue| > 0 && st3.runQueue == st.runQueue[1..]
    requires st3.calls == st.calls + [FactoryCall(st.runQueue[0], views)] && st3.calls <= rest.st.calls
    requires st.runQueue[0] in st3.registry && st3.registry[st.runQueue[0]].hasRun
    requires st3.registry.Keys == rest.st.registry.Keys
    requires forall g :: g in st3.registry && g !in st3.runQueue ==> rest.st.registry[g].hasRun == st3.registry[g].hasRun
    requires DrainOutcome(st3, rest)
    ensures DrainOutcome(st, rest)
  {
    if rest.Ok? {
      DrainCallsStep(st, st3, views, rest.st);
      DrainRanStep(st, st3, rest.st);
    } else {
      var n := |st.runQueue|;
      var k := |rest.st.runQueue|;
      assert st3.runQueue[|st3.runQueue| - k - 1] == st.runQueue[n - k - 1];
    }
  }

  lemma DrainRanStep(st: State, st3: State, st': State)
    requires |st.runQueue| > 0 && st3.runQueue == st.runQueue[1..]
    requires st.runQueue[0] in st3.registry && st3.registry[st.runQueue[0]].hasRun
    requires st3.registry.Keys == st'.registry.Keys
    requires forall g :: g in st3.registry && g !in st3.runQueue ==> st'.registry[g].hasRun == st3.registry[g].hasRun
    requires forall g :: g in st3.runQueue ==> g in st'.registry && st'.registry[g].hasRun
    ensures forall g :: g in st.runQueue ==> g in st'.registry && st'.registry[g].hasRun
  {
    forall g | g in st.runQueue
      ensures g in st'.registry && st'.registry[g].hasRun
    {
      if g != st.runQueue[0] {
        assert g in st3.runQueue;
      }
    }
  }

  lemma DrainCallsStep(st: State, st3: State, views: seq<ArgView>, st': State)
    requires |st.runQueue| > 0
    requires st3.runQueue == st.runQueue[1..] && st3.calls == st.calls + [FactoryCall(st.runQueue[0], views)]
    requires st3.calls <= st'.calls && CallsInOrder(st'.calls[|st3.calls|..], st3.runQueue)
    ensures st.calls <= st'.calls && CallsInOrder(st'.calls[|st.calls|..], st.runQueue)
  {
    var log, log3 := st'.calls[|st.calls|..], st'.calls[|st3.calls|..];
    forall i | 0 <= i < |st.runQueue|
      ensures log[i].FactoryCall? && log[i].fileName == st.runQueue[i]
    {
      if i == 0 {
        assert log[0] == st3.calls[|st.calls|];
      } else {
        assert log[i] == log3[i - 1];
      }
    }
  }

  /**
    A drain that completes found every queued record with a factory, not
    yet run, and with its dependency list: a queued record that has already
    run, or has no factory, makes the drain throw.
   */
  lemma {:induction false} DrainOkOnlyIfRunnable(host: Host, st: State)
    requires Valid(host, st) && Drain(host, st).Ok?
    ensures Runnable(st.registry, st.runQueue)
    decreases |st.runQueue|
  {
    if |st.runQueue| > 0 {
      var f := st.runQueue[0];
      ShiftKeepsValid(host, st);
      var m := st.registry[f];
      assert m.factory.Some? && !m.hasRun && m.deps.Some?;
      var args := FactoryArguments(host, Shift(st), f);
      var views := Views(st.heap, args.value);
      match host.invoke(m.factory.value, views)
      case Threw =>
      case Returned(writes) =>
        var heap := ApplyWrites(st.heap, args.value, writes);
        MarkRunKeepsValid(host, st, views, heap);
        var st3 := AfterFactory(st, views, heap);
        assert Drain(host, st) == Drain(host, st3);
        DrainOkOnlyIfRunnable(host, st3);
        forall i | 0 <= i < |st.runQueue|
          ensures st.runQueue[i] in st.registry
          ensures st.registry[st.runQueue[i]].factory.Some? && !st.registry[st.runQueue[i]].hasRun
          ensures st.registry[st.runQueue[i]].deps.Some?
        {
          if i > 0 {
            assert st.runQueue[i] == st3.runQueue[i - 1];
            assert st.runQueue[i] != f;
          }
        }
    }
  }

  /** A factory that returns whatever views it is called with. */
  ghost predicate AlwaysReturns(host: Host, factory: FactoryId) {
    forall vs :: host.invoke(factory, vs).Returned?
  }

  /** Every record in `q` is runnable and its factory always returns. */
  ghost predicate Completes(host: Host, reg: map<FileName, Record>, q: seq<FileName>) {
    && Runnable(reg, q)
    && forall i :: 0 <= i < |q| ==> AlwaysReturns(host, reg[q[i]].factory.value)
  }

  /**
    The converse direction: a drain whose queued records are all runnable,
    with factories that never throw, completes.
   */
  lemma {:induction false} DrainCompletes(host: Host, st: State)
    requires Valid(host, st) && Completes(host, st.registry, st.runQueue)
    ensures Drain(host, st).Ok?
    decreases |st.runQueue|
  {
    if |st.runQueue| > 0 {
      var st3 := CompletesStep(host, st);
      DrainCompletes(host, st3);
    }
  }

  /**
    Two queued records ready to run whose factories always return are run
    in queue order: the drain completes, both are marked as run, and their
    factory calls are the first two calls it logs.
   */
  lemma DrainPair(host: Host, st: State)
    requires Valid(host, st) && |st.runQueue| == 2
    requires Ready(st.registry[st.runQueue[0]]) && AlwaysReturns(host, st.registry[st.runQueue[0]].factory.value)
    requires Ready(st.registry[st.runQueue[1]]) && AlwaysReturns(host, st.registry[st.runQueue[1]].factory.value)
    ensures var o := Drain(host, st);
            && o.Ok?
            && st.runQueue[0] in o.st.registry && o.st.registry[st.runQueue[0]].hasRun
            && st.runQueue[1] in o.st.registry && o.st.registry[st.runQueue[1]].hasRun
            && |st.calls| + 1 < |o.st.calls|
            && o.st.calls[|st.calls|].FactoryCall? && o.st.calls[|st.calls|].fileName == st.runQueue[0]
            && o.st.calls[|st.calls| + 1].FactoryCall? && o.st.calls[|st.calls| + 1].fileName == st.runQueue[1]
  {
    assert Completes(host, st.registry, st.runQueue) by {
      forall i | 0 <= i < 2
        ensures Ready(st.registry[st.runQueue[i]]) && AlwaysReturns(host, st.registry[st.runQueue[i]].factory.value)
      {
      }
    }
    DrainCompletes(host, st);
    var o := Drain(host, st);
    var n := |st.calls|;
    assert o.st.calls[n..][0] == o.st.calls[n] && o.st.calls[n..][1] == o.st.calls[n + 1];
  }

  /** The front factory returns, and the rest of the queue still completes from the state after it. */
  lemma CompletesStep(host: Host, st: State) returns (st3: State)
    requires Valid(host, st) && |st.runQueue| > 0 && Completes(host, st.registry, st.runQueue)
    ensures Valid(host, st3) && |st3.runQueue| < |st.runQueue|
    ensures Drain(host, st) == Drain(host, st3)
    ensures Completes(host, st3.registry, st3.runQueue)
  {
    var f := st.runQueue[0];
    var m := st.registry[f];
    assert m.factory.Some? && !m.hasRun && m.deps.Some?;
    var args := FactoryArguments(host, st, f).value;
    var views := Views(st.heap, args);
    assert AlwaysReturns(host, m.factory.value);
    var writes := host.invoke(m.factory.value, views).writes;
    DrainAfterReturn(host, st, writes);
    st3 := AfterFactory(st, views, ApplyWrites(st.heap, args, writes));
    CompletesAfter(host, st, views, ApplyWrites(st.heap, args, writes));
  }

  /** Marking the front record as run leaves the rest of the queue as runnable as it was. */
  lemma CompletesAfter(host: Host, st: State, views: seq<ArgView>, heap: map<ObjRef, Props>)
    requires |st.runQueue| > 0 && NoDup(st.runQueue) && Completes(host, st.registry, st.runQueue)
    ensures Completes(host, AfterFactory(st, views, heap).registry, st.runQueue[1..])
  {
    var st3 := AfterFactory(st, views, heap);
    forall i | 0 <= i < |st3.runQueue|
      ensures st3.runQueue[i] in st3.registry && st3.registry[st3.runQueue[i]] == st.registry[st.runQueue[i + 1]]
    {
      assert st3.runQueue[i] == st.runQueue[i + 1] && st.runQueue[i + 1] != st.runQueue[0];
    }
  }

  /** The corollary the run-time checks of the drain guard: an already-run queued record is never run twice. */
  lemma DrainRejectsRunRecord(host: Host, st: State, i: nat)
    requires Valid(host, st) && i < |st.runQueue| && st.registry[st.runQueue[i]].hasRun
    ensures Drain(host, st).Fail?
  {
    if Drain(host, st).Ok? {
      DrainOkOnlyIfRunnable(host, st);
    }
  }

  lemma DrainRejectsMissingFactory(host: Host, st: State, i: nat)
    requires Valid(host, st) && i < |st.runQueue| && st.registry[st.runQueue[i]].factory.None?
    ensures Drain(host, st).Fail?
  {
    if Drain(host, st).Ok? {
      DrainOkOnlyIfRunnable(host, st);
    }
  }

  /**
    One step of the drain: the front record's factory is called with the
    views, over the current heap, of the arguments `getFactoryArguments`
    builds; the call is logged with those views; a throw ends the drain
    with the record off the queue, and a return applies the factory's
    writes to the heap, marks the record as run and drains the rest.
   */
  lemma DrainFront(host: Host, st: State)
    requires Valid(host, st) && |st.runQueue| > 0
    requires var m := st.registry[st.runQueue[0]]; m.factory.Some? && !m.hasRun && m.deps.Some?
    ensures var f := st.runQueue[0];
            var args := FactoryArguments(host, st, f).value;
            var views := Views(st.heap, args);
            var st2 := Shift(st).(calls := st.calls + [FactoryCall(f, views)]);
            match host.invoke(st.registry[f].factory.value, views)
            case Threw => Drain(host, st) == Fail(FactoryThrew(f), st2)
            case Returned(writes) =>
              && Valid(host, MarkRun(st2, f, ApplyWrites(st.heap, args, writes)))
              && Drain(host, st) == Drain(host, MarkRun(st2, f, ApplyWrites(st.heap, args, writes)))
  {
    var f := st.runQueue[0];
    ShiftKeepsValid(host, st);
    assert FactoryArguments(host, Shift(st), f) == FactoryArguments(host, st, f);
    var args := FactoryArguments(host, st, f).value;
    MarkRunKeepsValid(host, st, Views(st.heap, args), map[]);
    match host.invoke(st.registry[f].factory.value, Views(st.heap, args))
    case Threw =>
    case Returned(writes) =>
      MarkRunKeepsValid(host, st, Views(st.heap, args), ApplyWrites(st.heap, args, writes));
  }

  /** A drain whose runnable front factory returns goes on from the state after that factory. */
  lemma DrainAfterReturn(host: Host, st: State, writes: seq<Option<Props>>)
    requires Valid(host, st) && |st.runQueue| > 0
    requires var m := st.registry[st.runQueue[0]]; m.factory.Some? && !m.hasRun && m.deps.Some?
    requires var f := st.runQueue[0];
             var args := FactoryArguments(host, st, f).value;
             host.invoke(st.registry[f].factory.value, Views(st.heap, args)) == Returned(writes)
    ensures var args := FactoryArguments(host, st, st.runQueue[0]).value;
            var st3 := AfterFactory(st, Views(st.heap, args), ApplyWrites(st.heap, args, writes));
            Valid(host, st3) && Drain(host, st) == Drain(host, st3)
  {
    DrainFront(host, st);
  }

  /** A drain whose front record is runnable calls that record's factory first, with the views of its arguments. */
  lemma DrainCallsFrontFirst(host: Host, st: State)
    requires Valid(host, st) && |st.runQueue| > 0
    requires var m := st.registry[st.runQueue[0]]; m.factory.Some? && !m.hasRun && m.deps.Some?
    ensures var f := st.runQueue[0];
            var o := Drain(host, st);
            && |st.calls| < |o.st.calls|
            && o.st.calls[|st.calls|] == FactoryCall(f, Views(st.heap, FactoryArguments(host, st, f).value))
  {
    var f := st.runQueue[0];
    var args := FactoryArguments(host, st, f).value;
    var st2 := Shift(st).(calls := st.calls + [FactoryCall(f, Views(st.heap, args))]);
    DrainFront(host, st);
    match host.invoke(st.registry[f].factory.value, Views(st.heap, args))
    case Threw =>
    case Returned(writes) =>
      var st3 := MarkRun(st2, f, ApplyWrites(st.heap, args, writes));
      assert st2.calls <= Drain(host, st3).st.calls;
  }

  /** The exports object a factory wrote at its "exports" position, and at no later one, holds those contents afterwards. */
  lemma OwnExportsWritten(host: Host, st: State, j: nat, writes: seq<Option<Props>>, p: Props)
    requires Valid(host, st) && |st.runQueue| > 0
    requires var a := st.runQueue[0];
             st.registry[a].deps.Some? && j < |st.registry[a].deps.value| && st.registry[a].deps.value[j] == "exports"
    requires var args := FactoryArguments(host, st, st.runQueue[0]).value;
             && j < |writes| && writes[j] == Some(p)
             && forall l :: j < l < Paired(args, writes) ==> args[l] != args[j] || writes[l].None?
    ensures var a := st.runQueue[0];
            var args := FactoryArguments(host, st, a).value;
            var heap := ApplyWrites(st.heap, args, writes);
            st.registry[a].exports in heap && heap[st.registry[a].exports] == p
  {
    var args := FactoryArguments(host, st, st.runQueue[0]).value;
    LastWriteWins(st.heap, args, writes, Paired(args, writes), j);
  }

  /**
    What one factory writes into its own exports object is what the next
    queued factory sees of it: when `a` and then `b` are at the front of
    the queue, `a` receives "exports" at position `j`, `b` depends on `a`
    at position `k`, and `a`'s factory returns new contents `p` for that
    position (and none later for the same object), then `b`'s factory is
    called next and sees `p` as `a`'s exports.
   */
  lemma ExportsSeenByDependent(host: Host, st: State, j: nat, k: nat, writes: seq<Option<Props>>, p: Props)
    requires Valid(host, st) && |st.runQueue| > 1
    requires Runnable(st.registry, st.runQueue[..2])
    requires var a := st.runQueue[0];
             j < |st.registry[a].deps.value| && st.registry[a].deps.value[j] == "exports"
    requires var a, b := st.runQueue[0], st.runQueue[1];
             !IsSentinel(a) && k < |st.registry[b].deps.value| && st.registry[b].deps.value[k] == a
    requires var a := st.runQueue[0];
             var args := FactoryArguments(host, st, a).value;
             && host.invoke(st.registry[a].factory.value, Views(st.heap, args)) == Returned(writes)
             && j < |writes| && writes[j] == Some(p)
             && forall l :: j < l < Paired(args, writes) ==> args[l] != args[j] || writes[l].None?
    ensures var o := Drain(host, st);
            var c := |st.calls| + 1;
            && c < |o.st.calls| && o.st.calls[c].FactoryCall? && o.st.calls[c].fileName == st.runQueue[1]
            && k < |o.st.calls[c].views|
            && o.st.calls[c].views[k] == ObjectView(st.registry[st.runQueue[0]].exports, p)
  {
    var a, b := st.runQueue[0], st.runQueue[1];
    assert st.runQueue[..2][0] == a && st.runQueue[..2][1] == b;
    var argsA := FactoryArguments(host, st, a).value;
    var st2 := AfterFactory(st, Views(st.heap, argsA), ApplyWrites(st.heap, argsA, writes));
    DrainAfterReturn(host, st, writes);
    assert a != b by { ShiftKeepsValid(host, st); }
    assert st2.runQueue[0] == b && st2.registry[b] == st.registry[b];
    DrainCallsFrontFirst(host, st2);
    OwnExportsWritten(host, st, j, writes, p);
    var argsB := FactoryArguments(host, st2, b).value;
    assert argsB[k] == ExportsObject(st.registry[a].exports);
    assert Views(st2.heap, argsB)[k] == ObjectView(st.registry[a].exports, p);
  }
}

=== FILE: servicehost.dfy ===
/**
  The language-service host callback `getScriptKind`: which parser the
  language service uses for a file, looked up through `getModuleInfo`.
 */
module ServiceHost {
  import opened Base
  import opened Media
  import opened Collaborators
  import opened LoaderState
  import opened Resolver

  function GetScriptKind(host: Host, st: State, fileName: FileName): (o: Out<ScriptKind>)
    requires Valid(host, st)
    ensures fileName in st.registry ==> o == Ok(ScriptKindOf(st.registry[fileName].mediaType), st)
    ensures o.Ok? <==> GetModuleInfo(host, st, fileName).Ok?
    ensures o.Ok? ==>
              var g := GetModuleInfo(host, st, fileName);
              && o.st == g.st
              && (o.value == TS <==> g.st.registry[g.value].mediaType == TypeScript)
              && (o.value == JSON <==> g.st.registry[g.value].mediaType == Json)
    ensures o.Fail? ==> o.err == ResolutionError(fileName, "")
  {
    var g := GetModuleInfo(host, st, fileName);
    if g.Fail? then Fail(g.err, g.st)
    else Ok(ScriptKindOf(g.st.registry[g.value].mediaType), g.st)
  }

  /**
    A file first met through the language service is fetched from the
    empty containing file, and its kind follows the extension of the
    fetched module id.
   */
  lemma ScriptKindOfUnregistered(host: Host, st: State, fileName: FileName)
    requires Valid(host, st) && fileName !in st.registry
    requires FetchModule(host, fileName, "").moduleId != ""
    requires FetchModule(host, fileName, "").fileName !in st.registry
    ensures GetScriptKind(host, st, fileName).Ok?
    ensures GetScriptKind(host, st, fileName).value == ScriptKindOf(MediaTypeOf(FetchModule(host, fileName, "").moduleId))
  {
  }
}

=== FILE: state.dfy ===
/**
  The state of one `Compiler` instance, the outcome of an operation on it,
  and the representation invariant every operation keeps.
 */
module LoaderState {
  import opened Base
  import opened ModuleRecord
  import opened Collaborators

  /**
    `registry` is the module cache; `specifierCache` maps a (specifier,
    containing file) pair to the fileName it resolved to; `runQueue` holds
    the records waiting for their factory, by fileName; `heap` holds the
    exports objects and `nextRef` is the next free object reference;
    `define` is the module the global `define` binding is bound to, if any;
    `calls` lists the calls made into the collaborators, oldest first.
   */
  datatype State = State(
    registry: map<FileName, Record>,
    specifierCache: map<(Specifier, string), FileName>,
    runQueue: seq<FileName>,
    heap: map<ObjRef, Props>,
    nextRef: ObjRef,
    define: Option<FileName>,
    scriptFileNames: seq<string>,
    calls: seq<Call>)

  /**
    The outcome of an operation. A failure carries the state as it was when
    the error was thrown: nothing done before it is rolled back.
   */
  datatype Out<T> = Ok(value: T, st: State) | Fail(err: Error, st: State)

  /** A freshly constructed compiler. */
  function Initial(): State {
    State(map[], map[], [], map[], 0, None, [], [])
  }

  /** Every record is stored under its own fileName. */
  predicate KeysMatch(reg: map<FileName, Record>) {
    forall f :: f in reg ==> reg[f].fileName == f
  }

  /**
    Every cached pair is one the fetcher resolves, to the cached fileName,
    and that fileName is registered.
   */
  predicate CacheSound(host: Host, st: State) {
    forall k :: k in st.specifierCache ==>
      && k in host.fetchTable
      && host.fetchTable[k].moduleId != ""
      && host.fetchTable[k].fileName == st.specifierCache[k]
      && st.specifierCache[k] in st.registry
  }

  predicate NoDup(q: seq<FileName>) {
    forall i, j :: 0 <= i < j < |q| ==> q[i] != q[j]
  }

  /** The run queue holds registered records, each at most once. */
  predicate QueueWellFormed(st: State) {
    && NoDup(st.runQueue)
    && forall i :: 0 <= i < |st.runQueue| ==> st.runQueue[i] in st.registry
  }

  /** Every entry of a dependency list is a sentinel or a registered fileName. */
  predicate DepsIn(ds: seq<string>, reg: map<FileName, Record>) {
    forall i :: 0 <= i < |ds| ==> IsSentinel(ds[i]) || ds[i] in reg
  }

  predicate DepsResolved(reg: map<FileName, Record>) {
    forall f :: f in reg && reg[f].deps.Some? ==> DepsIn(reg[f].deps.value, reg)
  }

  /** Every record's exports object was allocated before `nextRef`. */
  predicate ExportsAllocated(st: State) {
    forall f :: f in st.registry ==> st.registry[f].exports < st.nextRef
  }

  predicate Valid(host: Host, st: State) {
    && KeysMatch(st.registry)
    && CacheSound(host, st)
    && QueueWellFormed(st)
    && DepsResolved(st.registry)
    && ExportsAllocated(st)
  }

  /** The records whose dependency gathering is in progress. */
  function Gathering(st: State): set<FileName> {
    set f | f in st.registry && st.registry[f].gatheringDeps
  }

  /** Every fileName that is or can become registered. */
  function Universe(host: Host, st: State): set<FileName> {
    st.registry.Keys + FetchedNames(host)
  }

  /**
    The facts every step of resolution, compilation and instantiation keeps:
    the invariant holds, records are only added and only with fetched
    names, the run queue and the call log only grow, the compile scope
    stays, and no record's `hasRun` changes.
   */
  predicate Evolves(host: Host, st: State, st': State) {
    && Valid(host, st')
    && st.registry.Keys <= st'.registry.Keys
    && st'.registry.Keys <= st.registry.Keys + FetchedNames(host)
    && st.runQueue <= st'.runQueue
    && st.calls <= st'.calls
    && st'.scriptFileNames == st.scriptFileNames
    && (forall g :: g in st.registry ==> st'.registry[g].hasRun == st.registry[g].hasRun)
  }

  /** The records named in `s` are exactly as they were. */
  predicate Untouched(st: State, st': State, s: set<FileName>) {
    forall g :: g in s && g in st.registry ==> g in st'.registry && st'.registry[g] == st.registry[g]
  }

  lemma InitialValid(host: Host)
    ensures Valid(host, Initial())
    ensures Gathering(Initial()) == {}
  {
  }

  lemma EvolvesKeepsUniverse(host: Host, st: State, st': State)
    requires Evolves(host, st, st')
    ensures Universe(host, st') == Universe(host, st)
  {
  }

  lemma EvolvesTransitive(host: Host, s1: State, s2: State, s3: State)
    requires Evolves(host, s1, s2) && Evolves(host, s2, s3)
    ensures Evolves(host, s1, s3)
  {
  }

  /** A dependency list over a registry stays resolved when the registry grows. */
  lemma DepsInGrow(ds: seq<string>, reg: map<FileName, Record>, reg': map<FileName, Record>)
    requires DepsIn(ds, reg) && reg.Keys <= reg'.Keys
    ensures DepsIn(ds, reg')
  {
  }

  /**
    `reload` applied to the registered record `fileName`: its exports object
    is replaced by a newly allocated empty one.
   */
  function ReloadModule(host: Host, st: State, fileName: FileName): (st': State)
    requires Valid(host, st) && fileName in st.registry
    ensures Valid(host, st')
    ensures st'.registry.Keys == st.registry.Keys
    ensures st'.registry[fileName] == Reload(st.registry[fileName], st.nextRef)
    ensures forall g :: g in st.registry && g != fileName ==> st'.registry[g] == st.registry[g]
    ensures forall g :: g in st.registry ==> st'.registry[g].exports != st'.registry[fileName].exports || g == fileName
  {
    var st' := st.(registry := st.registry[fileName := Reload(st.registry[fileName], st.nextRef)],
                   heap := st.heap[st.nextRef := map[]],
                   nextRef := st.nextRef + 1);
    assert DepsResolved(st'.registry) by {
      forall f | f in st'.registry && st'.registry[f].deps.Some?
        ensures DepsIn(st'.registry[f].deps.value, st'.registry)
      {
        DepsInGrow(st.registry[f].deps.value, st.registry, st'.registry);
      }
    }
    st'
  }

  /** Replace the registered record `fileName` in place. */
  function Put(st: State, fileName: FileName, m: Record): State {
    st.(registry := st.registry[fileName := m])
  }

  /** Push `fileName` onto the run queue unless it is already there. */
  function Enqueue(st: State, fileName: FileName): (st': State)
    ensures fileName in st'.runQueue
    ensures st.runQueue <= st'.runQueue
    ensures fileName !in st.runQueue ==> st'.runQueue == st.runQueue + [fileName]
    ensures fileName in st.runQueue ==> st'.runQueue == st.runQueue
  {
    if fileName in st.runQueue then st else st.(runQueue := st.runQueue + [fileName])
  }

  lemma GatheringAfterPut(st: State, fileName: FileName, m: Record)
    requires fileName in st.registry
    ensures m.gatheringDeps ==> Gathering(Put(st, fileName, m)) == Gathering(st) + {fileName}
    ensures !m.gatheringDeps ==> Gathering(Put(st, fileName, m)) == Gathering(st) - {fileName}
  {
  }

  /**
    Replacing a record by one with the same name and exports object, whose
    dependency list (if any) is resolved, keeps the invariant.
   */
  lemma PutKeepsValid(host: Host, st: State, fileName: FileName, m: Record)
    requires Valid(host, st) && fileName in st.registry
    requires m.fileName == fileName && m.exports == st.registry[fileName].exports
    requires m.deps.Some? ==> DepsIn(m.deps.value, st.registry)
    ensures Valid(host, Put(st, fileName, m))
  {
    var st' := Put(st, fileName, m);
    assert st'.registry.Keys == st.registry.Keys;
    forall f | f in st'.registry && st'.registry[f].deps.Some?
      ensures DepsIn(st'.registry[f].deps.value, st'.registry)
    {
      DepsInGrow(st'.registry[f].deps.value, st.registry, st'.registry);
    }
  }

  lemma EnqueueKeepsValid(host: Host, st: State, fileName: FileName)
    requires Valid(host, st) && fileName in st.registry
    ensures Valid(host, Enqueue(st, fileName))
  {
  }
}
